=== FILE: README.md ===
# Bill reminder bot: verified model of its due dates, summary and bill storage

The bot keeps a list of recurring bills for each user. A bill has:

- a frequency text;
- a merchant;
- an amount;
- a day of the month.

On request the bot reports which bills are due. This project models the three pieces of logic in `Dbot.py` that do real work, as pure Dafny functions over immutable data, and proves properties about them:

- **Due-date resolution** (`due_dates.dfy`, built on `calendar.dfy`). Each bill's due date is anchored on today's month, with the day replaced by the bill's day. It is then moved forward:
  - `"monthly"`: one step of 30 days, then the day is set again;
  - `"weekly"`: 7-day steps until it is not before today;
  - `"2 weeks"`: 14-day steps until it is not before today.
- **The summary** (`summary.dfy`). Every bill is resolved and two lists are gathered:
  - bills due no later than today plus 14 days;
  - bills due in today's month and not before today.

  One of four reports is then chosen: no bills, the coming-up list, the rest-of-month list, or nothing due.
- **Bill storage** (`bills.dfy`, built on `strings.dfy`):
  - the check applied to a typed line "frequency, merchant, amount, due day";
  - the text codec of the saved "Bills" field, which writes `frequency, merchant, $amount, due on N` per bill, joined by `"; "`, and reads it back.

`calendar.dfy` is the part of Python's `datetime` the bot relies on:

- the proleptic Gregorian calendar for years 1 to 9999, using the day numbers of `date.toordinal`;
- adding days, which fails past 9999-12-31 as `OverflowError` does;
- `replace(day=…)`, which fails when the month has no such day, as `ValueError` does. For a day of 2^31 or more, CPython raises `OverflowError` instead. The model gives `DayOutOfRange` for every missing day. The difference shows only in the text of the log line that `start` prints when it catches the exception (Dbot.py:155-157).

`strings.dfy` holds the `str` operations the bot uses: `split`, `join`, `strip`, `lower`, `replace`, `int` and `str`. `results.dfy` holds the `Result` and `Option` types.

Today's date is a parameter of the model. The bot uses `datetime.now()`, and that value carries a time of day. Every date the bot compares is derived from `now` with the same time of day, so each comparison is a comparison of calendar dates. The model therefore drops the time.

A raised exception becomes an `Err` value:

- `Summarize` fails with the first bill whose date cannot be resolved. This is where the bot's loop would raise, and nothing gets reported.
- `Summarize` also fails on any non-empty bill list when today plus 14 days passes 9999-12-31 (`Summary.ClassifyNearEndOfCalendar`). For each bill, the bot computes `today + timedelta(days=14)` and raises `OverflowError` there (Dbot.py:183).
- `Decode` fails on the first saved bill that does not split into four fields, or whose last word of the fourth field is not an integer (Dbot.py:37 and 42).

Two behaviours of the code differ from what a reader of the bot would expect. The model follows the code in each:

- **The monthly step can land before today.** A reminder bot is expected to give each bill a next occurrence that is never before today, and to move a monthly bill whose day has passed to a later month. The code's 30-day monthly step does neither in every case; see Findings.
- **Unrecognised frequency texts.** The code does not refuse them: it keeps the anchor date (`DueDates.OtherFrequencyKeepsAnchor`). That includes the "bi-weekly" that the bot's own prompt suggests.

## Model

| member | source | states |
|---|---|---|
| `Calendar.ReplaceDay` | Dbot.py:171 | `replace(day=…)` succeeds exactly when the day exists in that month; it keeps year and month and sets the day; otherwise it fails with the day-out-of-range error |
| `Calendar.AddDays` | Dbot.py:175 | adding `n` days succeeds exactly when the result's day number is within the last representable date, and then advances the day number by exactly `n`; otherwise it is an overflow |
| `Calendar.BeforeIsDayNumberOrder` | Dbot.py:174 | the date comparison the bot uses (year, then month, then day) is the same as comparing day numbers |
| `Calendar.AddDaysCompose` | Dbot.py:177-178 | adding `m` days then `n` days is adding `m + n` days, so repeated weekly steps are one longer step |
| `DueDates.Anchor` | Dbot.py:171 | the anchor is today's year and month with the bill's day; it fails with day-out-of-range exactly when the day is not in today's month |
| `DueDates.StepForwardDayNumber` | Dbot.py:176-181 | `k` steps of `step` days from a date land exactly `step * k` days later |
| `DueDates.Advance` | Dbot.py:177-181 | the stepping loop ends not before today; it ends at the anchor plus some number of steps; one step fewer is still before today (the first such date); an anchor not before today is returned unchanged; it fails only by overflow near the last representable date |
| `DueDates.AdvanceTakesCeilingSteps` | Dbot.py:177-181 | the loop takes exactly the ceiling of (days from anchor to today) / step steps, and none when the anchor has not passed |
| `DueDates.ResolveDue` | Dbot.py:170-181 | a resolved due date is a valid date, and a bill's day that today's month lacks makes resolution fail with day-out-of-range |
| `DueDates.SteppedResolution` | Dbot.py:176-181 | for "weekly" and "2 weeks", the due date is the first anchor-plus-steps date not before today; an anchor not before today is kept; failure is only overflow |
| `DueDates.MonthlyResolution` | Dbot.py:173-175 | for "monthly", an anchor not before today is kept; otherwise the result is the anchor plus 30 days with its day set back to the bill's day, so a result always has the bill's day; the result lies before today exactly when the bill's day is the 1st of a 31-day month |
| `DueDates.OtherFrequencyKeepsAnchor` | Dbot.py:172-181 | any frequency text other than "monthly", "weekly" and "2 weeks" leaves the due date at the anchor |
| `DueDates.BiWeeklyIsUnrecognised` | Dbot.py:114 | the "bi-weekly" the bill prompt offers matches none of the three recognised texts |
| `DueDates.MonthlyCanStayBehind` | Dbot.py:173-175 | monthly, due on the 1st, today 2024-01-15: the result is 2024-01-01, before today |
| `DueDates.MonthlyCanFailInShortMonth` | Dbot.py:175 | monthly, due on the 29th, today 2023-01-30: 30 days on is 28 February and setting the 29th fails |
| `DueDates.NextMonthlyDue` | Dbot.py:173-175 | the intended monthly step: never before today; keeps an anchor that has not passed; otherwise it is in the next calendar month, on the bill's day or that month's last day; fails only at the end of the calendar |
| `DueDates.NextMonthlyDueAgreesOnAnchor` | Dbot.py:173-174 | the intended and the written monthly steps agree whenever the anchor has not passed |
| `DueDates.NextMonthlyDueFixesExamples` | Dbot.py:173-175 | on the two inputs where the written step goes wrong, the intended step gives 2024-02-01 and 2023-02-28 |
| `DueDates.ResolveDueCorrected` | Dbot.py:170-181 | with the intended monthly step, each recognised frequency gives a due date not before today; "monthly" is resolved by `DueDates.NextMonthlyDue`; once the anchor exists the only failure left is overflow at the end of the calendar, so the short-month day-out-of-range failure is gone; the other frequencies resolve as written |
| `Summary.Classify` | Dbot.py:170-188 | every coming-up line is due no later than 14 days after today; every rest-of-month line is in today's month and not before today; neither list is longer than the bills |
| `Summary.Summarize` | Dbot.py:160-198 | the report is "no bills" exactly when there are none; a coming-up report is non-empty and lists only bills due within 14 days; a rest-of-month report is non-empty and lists only bills in today's month, not before today |
| `Summary.ResolveAll` | Dbot.py:170-181 | resolving every bill in order gives one line per bill, with that bill's merchant, amount and due date; a failure is the error of the first bill that fails |
| `Summary.ClassifyIsResolveThenFilter` | Dbot.py:170-188 | away from the end of the calendar, the one pass equals resolving every bill and then keeping, in order, the lines due within two weeks and the lines left this month, with the same error when a bill fails |
| `Summary.ClassifyNearEndOfCalendar` | Dbot.py:183 | within 14 days of 9999-12-31, today plus 14 days overflows, so any non-empty list fails, with the first bill's own error if it has one |
| `Summary.Choose` | Dbot.py:190-198 | the chosen report is never "no bills"; the coming-up list is shown exactly when it is non-empty; the rest-of-month list exactly when nothing is coming up and it is non-empty; otherwise "nothing due" |
| `Summary.SummaryChoice` | Dbot.py:190-198 | the coming-up report appears whenever any bill is due within two weeks; the rest-of-month report only when none is and some bill is left this month; otherwise "nothing due" |
| `Summary.DueSoonOfEmpty` | Dbot.py:190 | no line is kept as coming up exactly when no resolved bill is due within two weeks |
| `Summary.LeftThisMonthOfEmpty` | Dbot.py:193 | no line is kept for the rest of the month exactly when no resolved bill is in today's month and not before today |
| `Summary.ReportEntriesComeFromBills` | Dbot.py:183-188 | every listed line is some saved bill's merchant and amount with that bill's resolved due date |
| `Summary.SteppedBillIsDueSoon` | Dbot.py:176-183 | a weekly or fortnightly bill whose day this month has passed is always listed as coming up, and never dated before today |
| `Summary.IntendedListsNothingPastDue` | Dbot.py:173-188 | with the intended monthly step, and only recognised frequencies, no listed line is dated before today |
| `Summary.WrittenRuleListsPastDue` | Dbot.py:173-184 | as written, monthly rent due on the 1st with today 2024-01-15 is listed as coming up on 2024-01-01; with the intended step nothing is due |
| `Summary.MonthlyRentNextMonthIsUpcoming` | Dbot.py:173-191 | monthly rent due on the 1st with today 2024-06-20 is listed as coming up on 2024-07-01 |
| `Summary.WeeklyBillLaterThisMonthIsUpcoming` | Dbot.py:176-191 | a weekly bill due on the 20th with today 2024-06-10 is listed as coming up on 2024-06-20 |
| `Summary.UpcomingHidesRestOfMonth` | Dbot.py:183-196 | a bill due within two weeks hides a bill that is only left this month: the report is the coming-up list alone |
| `Strings.SplitJoin` | Dbot.py:35-37 | splitting a join on a separator that cannot overlap itself, and that no part contains, gives the parts back |
| `Strings.SplitCount` | Dbot.py:122-123 | splitting on one character gives one more part than the character's occurrences |
| `Strings.Strip` | Dbot.py:127-128 | the stripped text is the slice of the original left after cutting whitespace from both ends, and neither starts nor ends with whitespace, so only leading and trailing whitespace is removed |
| `Strings.RemoveChar` | Dbot.py:41 | `replace('$', '')`: the result holds no `$`, holds only characters of the input, and is the input itself when there is no `$` |
| `Strings.RemoveCharConcat` | Dbot.py:41 | removal distributes over concatenation and deletes a lone `$`; with the contract of `RemoveChar` this fixes the result on every input |
| `Strings.Lower` | Dbot.py:127 | lower-casing keeps the length, leaves no capital letter, changes only capital letters to their small ones, and keeps whitespace where it was |
| `Strings.ParseIntToString` | Dbot.py:42 | reading back the decimal text of any integer gives that integer |
| `Bills.ParseEntry` | Dbot.py:122-141 | a line is refused for its part count exactly when it does not hold exactly three commas; an admitted bill has a due day in 1..31, no comma in its texts, a stripped and lower-cased frequency, a stripped merchant and no `$` in its amount (which texts they are is stated by `Bills.EntryDueDay`) |
| `Bills.EntryDueDay` | Dbot.py:127-134 | a four-part line is admitted exactly when its stripped fourth part is an integer in 1..31; the admitted bill has that integer as due day, the stripped and lower-cased first part as frequency, the stripped second part as merchant, and the stripped third part without `$` as amount; a non-integer is refused as such |
| `Bills.AddEntry` | Dbot.py:123-141 | a refused line leaves the bill list unchanged; an admitted one appends exactly the bill the line was admitted as, after the unchanged list |
| `Bills.AddEntries` | Dbot.py:115-141 | the entry loop leaves the earlier bills in front and appends, in typing order, exactly the bills the typed lines are admitted as (the reference `Bills.Admitted`, which skips refused lines), so at most one bill per line |
| `Bills.AddEntryKeepsAdmissible` | Dbot.py:115-141 | whatever lines are typed, every bill in the list stays admissible |
| `Bills.DecodeBill` | Dbot.py:37-43 | a bill's text fails for its field count exactly when it does not split into four fields; a decoded amount holds no `$` |
| `Bills.DecodeAll` | Dbot.py:35-43 | decoding succeeds with one bill per text, each the decoding of its text; a failure is the error of the first text that fails, every earlier text decoding |
| `Bills.Decode` | Dbot.py:34 | an empty field loads as no bills |
| `Bills.Encode` | Dbot.py:58-60 | the saved field is empty exactly when there are no bills, which is what loading tests before splitting |
| `Bills.EncodeBillFields` | Dbot.py:58-60 | the text written for an encodable bill splits on ", " into its frequency, merchant, `$`-prefixed amount and "due on N" |
| `Bills.EncodeBillAvoidsBillSeparator` | Dbot.py:58-60 | the text written for an encodable bill never holds the "; " that separates bills |
| `Bills.DecodeEncodeBill` | Dbot.py:37-43 | reading back the text written for an encodable bill gives the bill |
| `Bills.DecodeEncode` | Dbot.py:34-60 | saving then loading gives back the same bills in order when no text holds ", " or "; " and no amount holds `$`; no bills save as the empty field |
| `Bills.AdmissibleEncodable` | Dbot.py:122-141 | an admitted bill can hold no ", ", and can fail to be encodable only through a "; " in one of its texts |
| `Bills.SemicolonMerchantBreaksReload` | Dbot.py:122-141 | the line "weekly, A; B, 5.0, 3" is admitted with merchant "A; B", saved as "weekly, A; B, $5.0, due on 3", and that field fails to load |
| `Bills.ParseEntryChecked` | Dbot.py:122-141 | the corrected line check admits exactly the lines the written check admits with a bill that can be saved, and with the same bill; every other line gets the written check's refusal, or the separator refusal when the written check admitted a bill that cannot be saved |
| `Bills.AddEntriesChecked` | Dbot.py:115-141 | with the corrected check, the entry loop appends, in typing order, exactly the bills the corrected check admits (the reference `Bills.AdmittedChecked`), and every bill entered is encodable |
| `Bills.CheckedEntriesReload` | Dbot.py:34-60 | with the corrected check, whatever lines are typed, the saved bills load back unchanged |

## Left out

- The Discord bot itself is not modelled, because it is network and user-interface plumbing: setup, `bot.run`, `on_ready`, the `start` command's conversation through `wait_for`, and the messages sent with `ctx.send`.
- The "done" line that ends bill entry and the "yes"/"no" prompt are left out, because the model takes the typed bill lines as a sequence.
- Reading and writing `user_data.csv` through the `csv` module is left out as file I/O. Only the text of the "Bills" field is modelled. The other columns are left out: name, pay frequency and payday.
- The pay-frequency and payday prompts are left out, because they only store the typed text.
- The global `user_data` dictionary is left out. Bills and today's date are parameters instead.
- `datetime.now()` is left out: today is a parameter. Its time of day is dropped, because every comparison the bot makes is between datetimes with the same time of day.
- Report lines are kept as (merchant, amount, date) entries. Rendering them with `strftime` and joining them with newlines is left out.
- The Windows event-loop policy is left out as platform setup.
- `Bills.ParseEntry` and `Bills.EntryDueDay`: the amount is kept as text with `$` removed. `float()` is not modelled, so a line whose amount is not a number is admitted here, where the bot refuses it. `EntryDueDay`'s "admitted exactly when" therefore leaves out that refusal. The same goes for the float's printed form, such as "5" saved as "5.0".
- `Bills.DecodeBill`: the loaded amount is also kept as text with `$` removed. A saved field whose amount is not a number therefore loads here, where `float()` raises in the bot; and a loaded amount is not normalised to the float's printed form.
- `Strings.ParseInt`: models `int()` on an optional sign followed by ASCII digits. Python's `int()` also accepts surrounding whitespace, digit-group underscores and non-ASCII digits, and those are not modelled. Surrounding whitespace matters only for the last word of a saved bill's fourth field (`Bills.DecodeBill`), which the model refuses where the bot would read it; a field the model writes never has it.
- `Strings.Strip`: handles ASCII whitespace only: blank, tab, line feed, vertical tab, form feed, carriage return and the separators U+001C to U+001F. Python's `str.strip()` also removes non-ASCII whitespace such as U+0085 and U+00A0.
- `Strings.Lower`: handles ASCII letters only. Python's `str.lower()` also lower-cases non-ASCII letters.
- `DueDates.Advance`: the failure case is stated as an overflow with today within one step of the last representable date. The exact step at which the overflow happens is not characterised.
- Exceptions the bot catches in `start`, and the reply it sends then, are left out. A failed resolution or load is an `Err` value.

## Findings

| source | as written | input that shows it | evidently intended | confidence | as-written member | corrected member |
|---|---|---|---|---|---|---|
| Dbot.py:173-175 | a passed monthly anchor moves 30 days on and the day is set back to the bill's day | due on the 1st, today 2024-01-15: 2024-01-01 + 30 days = 2024-01-31, day set to 1 gives 2024-01-01, still before today, and it is reported as coming up | the bill's day in the next calendar month, never before today | not executed | `DueDates.MonthlyCanStayBehind` | `DueDates.NextMonthlyDue` |
| Dbot.py:175 | setting the bill's day again after the 30-day step | due on the 29th, today 2023-01-30: 30 days on is 2023-02-28 and `replace(day=29)` raises, so the summary fails | fall back to the last day of a shorter month | not executed | `DueDates.MonthlyCanFailInShortMonth` | `DueDates.ResolveDueCorrected` |
| Dbot.py:122-141 | the line check refuses only a wrong part count and a due day outside 1..31, so a merchant may hold "; " | "weekly, A; B, 5.0, 3" is saved as "weekly, A; B, $5.0, due on 3" (the float 5.0 prints as "5.0"), and loading splits it into "weekly, A" and "B, $5.0, due on 3", which fails to unpack | refuse text that holds the field's separators | not executed | `Bills.SemicolonMerchantBreaksReload` | `Bills.ParseEntryChecked` |

`Summary.Summarize` takes the monthly rule as a parameter. `AsWritten` reproduces the bot. `Intended` uses the corrected step, and `Summary.IntendedListsNothingPastDue` and `Summary.WrittenRuleListsPastDue` compare the two.

=== FILE: bills.dfy ===
/**
  Bills as the bot stores them: the free-text bill line a user types, the
  check that admits it, and the text codec of the CSV "Bills" field that saves
  a user's bills and loads them back.
 */
module Bills {
  import opened Results
  import opened Strings

  /**
    One bill. The amount is kept as the text of the number; `dueDay` is the
    day of the month the due date is anchored on.
   */
  datatype Bill = Bill(frequency: string, merchant: string, amount: string, dueDay: int)

  /** Why a typed bill line is turned away. */
  datatype Rejection =
    | WrongPartCount     // not exactly four comma-separated parts
    | DueDayNotANumber   // the fourth part is not an integer
    | DueDayOutOfRange   // the fourth part is an integer outside 1..31
    | SeparatorInText    // a text part holds "; " (only the corrected check rejects this)

  datatype EntryOutcome = Accepted(bill: Bill) | Rejected(reason: Rejection)

  /** What every bill admitted from a typed line looks like. */
  predicate Admissible(b: Bill) {
    && 1 <= b.dueDay <= 31
    && ',' !in b.frequency && ',' !in b.merchant && ',' !in b.amount
    && '$' !in b.amount
    && (forall i :: 0 <= i < |b.frequency| ==> !('A' <= b.frequency[i] <= 'Z'))
    && (|b.frequency| > 0 ==> !IsSpace(b.frequency[0]) && !IsSpace(b.frequency[|b.frequency| - 1]))
    && (|b.merchant| > 0 ==> !IsSpace(b.merchant[0]) && !IsSpace(b.merchant[|b.merchant| - 1]))
  }

  /** The bill built from a line's four parts once the due day has been checked. */
  function EntryBill(parts: seq<string>, dueDay: int): (b: Bill)
    requires |parts| == 4
    requires ',' !in parts[0] && ',' !in parts[1] && ',' !in parts[2]
    requires 1 <= dueDay <= 31
    ensures Admissible(b)
  {
    EntryTexts(parts, dueDay);
    Bill(Lower(Strip(parts[0])), Strip(parts[1]), RemoveChar(Strip(parts[2]), '$'), dueDay)
  }

  /** The texts cut from a line's first three parts hold no comma and meet the admissible shape. */
  lemma EntryTexts(parts: seq<string>, dueDay: int)
    requires |parts| == 4
    requires ',' !in parts[0] && ',' !in parts[1] && ',' !in parts[2]
    requires 1 <= dueDay <= 31
    ensures Admissible(Bill(Lower(Strip(parts[0])), Strip(parts[1]), RemoveChar(Strip(parts[2]), '$'), dueDay))
  {
    FrequencyText(parts[0]);
    MerchantText(parts[1]);
    AmountText(parts[2]);
  }

  /** A frequency cut from comma-free text: no comma, no capital, no whitespace at its ends. */
  lemma FrequencyText(part: string)
    requires ',' !in part
    ensures var frequency := Lower(Strip(part));
            && ',' !in frequency
            && (forall i :: 0 <= i < |frequency| ==> !('A' <= frequency[i] <= 'Z'))
            && (|frequency| > 0 ==> !IsSpace(frequency[0]) && !IsSpace(frequency[|frequency| - 1]))
  {
    var stripped := Strip(part);
    var frequency := Lower(stripped);
    assert ',' !in stripped;
    if |frequency| > 0 {
      assert IsSpace(frequency[0]) <==> IsSpace(stripped[0]);
      assert IsSpace(frequency[|frequency| - 1]) <==> IsSpace(stripped[|stripped| - 1]);
    }
  }

  /** A merchant cut from comma-free text: no comma, no whitespace at its ends. */
  lemma MerchantText(part: string)
    requires ',' !in part
    ensures var merchant := Strip(part);
            ',' !in merchant && (|merchant| > 0 ==> !IsSpace(merchant[0]) && !IsSpace(merchant[|merchant| - 1]))
  {
  }

  /** An amount cut from comma-free text: no comma and no `$`. */
  lemma AmountText(part: string)
    requires ',' !in part
    ensures var amount := RemoveChar(Strip(part), '$');
            ',' !in amount && '$' !in amount
  {
    assert ',' !in Strip(part);
  }

  /**
    The check applied to a typed bill line "frequency, merchant, amount, due
    day": four comma-separated parts, the frequency stripped and lower-cased,
    the merchant stripped, `$` dropped from the amount, and a due day in 1..31.
   */
  function ParseEntry(line: string): (r: EntryOutcome)
    ensures r == Rejected(WrongPartCount) <==> CountChar(line, ',') != 3
    ensures r.Accepted? ==> Admissible(r.bill)
  {
    SplitCount(line, ',');
    var parts := Split(line, ",");
    if |parts| != 4 then Rejected(WrongPartCount)
    else
      SplitPiecesAvoid(line, ',');
      match ParseInt(Strip(parts[3]))
      case None => Rejected(DueDayNotANumber)
      case Some(dueDay) =>
        if 1 <= dueDay <= 31 then Accepted(EntryBill(parts, dueDay))
        else Rejected(DueDayOutOfRange)
  }

  /**
    A line with four parts is admitted exactly when its stripped fourth part
    is an integer in 1..31. The admitted bill holds that integer as its due
    day, the stripped and lower-cased first part as its frequency, the
    stripped second part as its merchant, and the stripped third part without
    `$` as its amount.
   */
  lemma EntryDueDay(line: string)
    requires CountChar(line, ',') == 3
    ensures var parts := Split(line, ",");
            && |parts| == 4
            && (ParseEntry(line).Accepted? <==>
                  ParseInt(Strip(parts[3])).Some? && 1 <= ParseInt(Strip(parts[3])).value <= 31)
            && (ParseEntry(line).Accepted? ==>
                  ParseEntry(line).bill.dueDay == ParseInt(Strip(parts[3])).value &&
                  ParseEntry(line).bill.merchant == Strip(parts[1]) &&
                  ParseEntry(line).bill.frequency == Lower(Strip(parts[0])) &&
                  ParseEntry(line).bill.amount == RemoveChar(Strip(parts[2]), '$'))
            && (ParseInt(Strip(parts[3])).None? <==> ParseEntry(line) == Rejected(DueDayNotANumber))
  {
    SplitCount(line, ',');
    SplitPiecesAvoid(line, ',');
    var parts := Split(line, ",");
    if ParseEntry(line).Accepted? {
      assert ParseEntry(line) == Accepted(EntryBill(parts, ParseInt(Strip(parts[3])).value));
    }
  }

  /** One pass of the entry loop: the line's bill is appended; a rejected line changes nothing. */
  function AddEntry(bills: seq<Bill>, line: string): (r: seq<Bill>)
    ensures ParseEntry(line).Rejected? ==> r == bills
    ensures ParseEntry(line).Accepted? ==> r == bills + [ParseEntry(line).bill]
  {
    match ParseEntry(line)
    case Accepted(b) => bills + [b]
    case Rejected(_) => bills
  }

  /**
    Bills entered through the bot are all admissible, whatever lines were
    typed: the loop only appends the admitted bills of `Admitted`.
   */
  lemma AddEntryKeepsAdmissible(bills: seq<Bill>, lines: seq<string>)
    requires forall i :: 0 <= i < |bills| ==> Admissible(bills[i])
    ensures var r := AddEntries(bills, lines);
            forall i :: 0 <= i < |r| ==> Admissible(r[i])
  {
  }

  /**
    The entry loop over a sequence of typed lines: the result is the earlier
    bills followed by the bills the lines are admitted as, in typing order.
   */
  function AddEntries(bills: seq<Bill>, lines: seq<string>): (r: seq<Bill>)
    ensures r == bills + Admitted(lines)
    ensures |bills| <= |r| <= |bills| + |lines|
    decreases |lines|
  {
    if |lines| == 0 then bills
    else
      AdmittedStep(bills, lines);
      AddEntries(AddEntry(bills, lines[0]), lines[1..])
  }

  /** Appending the first line's bill, then the rest's, is appending all the lines' bills. */
  lemma AdmittedStep(bills: seq<Bill>, lines: seq<string>)
    requires |lines| > 0
    ensures AddEntry(bills, lines[0]) + Admitted(lines[1..]) == bills + Admitted(lines)
  {
    var rest := Admitted(lines[1..]);
    match ParseEntry(lines[0])
    case Accepted(b) => AppendAdmitted(bills, b, rest);
    case Rejected(_) =>
  }

  lemma AppendAdmitted(bills: seq<Bill>, b: Bill, rest: seq<Bill>)
    ensures (bills + [b]) + rest == bills + ([b] + rest)
  {
  }

  /** Reference for the entry loop: each typed line's admitted bill, in order; refused lines add nothing. */
  function Admitted(lines: seq<string>): (r: seq<Bill>)
    ensures |r| <= |lines|
    ensures forall i :: 0 <= i < |r| ==> Admissible(r[i])
    decreases |lines|
  {
    if |lines| == 0 then []
    else
      var rest := Admitted(lines[1..]);
      match ParseEntry(lines[0])
      case Accepted(b) => [b] + rest
      case Rejected(_) => rest
  }

  const FieldSeparator: string := ", "
  const BillSeparator: string := "; "

  /** One bill in the saved "Bills" field: "frequency, merchant, $amount, due on N". */
  function EncodeBill(b: Bill): string {
    b.frequency + FieldSeparator + b.merchant + ", $" + b.amount + ", due on " + IntToString(b.dueDay)
  }

  /** The saved "Bills" field: the bills' texts joined by "; "; it is empty exactly when there are no bills. */
  function Encode(bills: seq<Bill>): (r: string)
    ensures r == "" <==> |bills| == 0
  {
    var texts := seq(|bills|, i requires 0 <= i < |bills| => EncodeBill(bills[i]));
    if |bills| == 0 then Join(texts, BillSeparator)
    else
      JoinNonEmpty(texts, BillSeparator);
      Join(texts, BillSeparator)
  }

  /** Why loading a saved "Bills" field fails. */
  datatype LoadError =
    | WrongFieldCount   // a bill's text does not split into exactly four fields
    | BadDueDay         // the last word of the fourth field is not an integer

  /** One bill's text back into a bill: four ", "-separated fields, `$` dropped, due day from the last word. */
  function DecodeBill(text: string): (r: Result<Bill, LoadError>)
    ensures r.Ok? ==> '$' !in r.value.amount
    ensures r == Err(WrongFieldCount) <==> |Split(text, FieldSeparator)| != 4
  {
    var fields := Split(text, FieldSeparator);
    if |fields| != 4 then Err(WrongFieldCount)
    else
      var words := Split(fields[3], " ");
      match ParseInt(words[|words| - 1])
      case None => Err(BadDueDay)
      case Some(dueDay) => Ok(Bill(fields[0], fields[1], RemoveChar(fields[2], '$'), dueDay))
  }

  /** Text `i` is the first that fails to decode, with error `e`. */
  predicate FirstLoadFailure(texts: seq<string>, i: int, e: LoadError)
    requires 0 <= i < |texts|
  {
    DecodeBill(texts[i]) == Err(e) && forall j :: 0 <= j < i ==> DecodeBill(texts[j]).Ok?
  }

  /** Decodes each bill text in order, stopping at the first that fails. */
  function DecodeAll(texts: seq<string>): (r: Result<seq<Bill>, LoadError>)
    ensures r.Ok? ==> |r.value| == |texts|
    ensures r.Ok? ==> forall i :: 0 <= i < |texts| ==> DecodeBill(texts[i]) == Ok(r.value[i])
    ensures r.Err? ==> exists i :: 0 <= i < |texts| && FirstLoadFailure(texts, i, r.error)
    decreases |texts|
  {
    if |texts| == 0 then Ok([])
    else
      var first := DecodeBill(texts[0]);
      if first.Err? then
        assert FirstLoadFailure(texts, 0, first.error);
        Err(first.error)
      else
        var rest := DecodeAll(texts[1..]);
        if rest.Err? then
          FirstLoadFailureShift(texts, rest.error);
          Err(rest.error)
        else
          Ok([first.value] + rest.value)
  }

  /** A first failure among the later texts is the first failure of all of them when the first text decodes. */
  lemma FirstLoadFailureShift(texts: seq<string>, e: LoadError)
    requires |texts| > 0 && DecodeBill(texts[0]).Ok?
    requires exists i :: 0 <= i < |texts| - 1 && FirstLoadFailure(texts[1..], i, e)
    ensures exists i :: 0 <= i < |texts| && FirstLoadFailure(texts, i, e)
  {
    var i :| 0 <= i < |texts| - 1 && FirstLoadFailure(texts[1..], i, e);
    forall j | 0 <= j < i + 1
      ensures DecodeBill(texts[j]).Ok?
    {
      if j > 0 {
        assert texts[j] == texts[1..][j - 1];
      }
    }
    assert texts[i + 1] == texts[1..][i];
    assert FirstLoadFailure(texts, i + 1, e);
  }

  /** The loaded "Bills" field: empty means no bills, otherwise split on "; " and decode each part. */
  function Decode(field: string): (r: Result<seq<Bill>, LoadError>)
    ensures field == "" ==> r == Ok([])
  {
    if field == "" then Ok([]) else DecodeAll(Split(field, BillSeparator))
  }

  /** A bill whose texts cannot be confused with the field's separators. */
  predicate Encodable(b: Bill) {
    && !Contains(b.frequency, FieldSeparator) && !Contains(b.frequency, BillSeparator)
    && !Contains(b.merchant, FieldSeparator) && !Contains(b.merchant, BillSeparator)
    && !Contains(b.amount, FieldSeparator) && !Contains(b.amount, BillSeparator)
    && '$' !in b.amount
  }

  /** A bill's text is its four fields joined by ", ". */
  lemma EncodeBillIsJoin(b: Bill)
    ensures EncodeBill(b) ==
            Join([b.frequency, b.merchant, "$" + b.amount, "due on " + IntToString(b.dueDay)], FieldSeparator)
  {
    var n := IntToString(b.dueDay);
    var parts := [b.frequency, b.merchant, "$" + b.amount, "due on " + n];
    assert Join(parts[3..], FieldSeparator) == "due on " + n;
    assert Join(parts[2..], FieldSeparator) == "$" + b.amount + FieldSeparator + "due on " + n;
    assert Join(parts[1..], FieldSeparator) == b.merchant + FieldSeparator + "$" + b.amount + FieldSeparator + "due on " + n;
  }

  /** The text of a non-negative or negative integer holds no space and no comma. */
  lemma IntTextAvoids(n: int)
    ensures !Contains(IntToString(n), " ") && !Contains(IntToString(n), FieldSeparator)
    ensures !Contains(IntToString(n), BillSeparator)
  {
    var t := IntToString(n);
    ContainsChar(t, ' ');
    if Contains(t, FieldSeparator) {
      ContainsFirstChar(t, FieldSeparator);
    }
    if Contains(t, BillSeparator) {
      ContainsFirstChar(t, BillSeparator);
    }
  }

  /** A bill's text splits on ", " into its four fields. */
  lemma EncodeBillFields(b: Bill)
    requires Encodable(b)
    ensures Split(EncodeBill(b), FieldSeparator) ==
            [b.frequency, b.merchant, "$" + b.amount, "due on " + IntToString(b.dueDay)]
  {
    var n := IntToString(b.dueDay);
    IntTextAvoids(b.dueDay);
    ConcatAvoids("$", b.amount, FieldSeparator);
    ConcatAvoids("due on ", n, FieldSeparator);
    EncodeBillIsJoin(b);
    SplitJoin([b.frequency, b.merchant, "$" + b.amount, "due on " + n], FieldSeparator);
  }

  /** The last word of "due on N" is the text of N. */
  lemma DueOnLastWord(dueDay: int)
    ensures var words := Split("due on " + IntToString(dueDay), " ");
            words[|words| - 1] == IntToString(dueDay)
  {
    var n := IntToString(dueDay);
    IntTextAvoids(dueDay);
    var words := ["due", "on", n];
    assert Join(words[1..], " ") == "on" + " " + n;
    assert "due" + " " + ("on" + " " + n) == "due on " + n;
    SplitJoin(words, " ");
  }

  /** Decoding a bill's text gives the bill back. */
  lemma DecodeEncodeBill(b: Bill)
    requires Encodable(b)
    ensures DecodeBill(EncodeBill(b)) == Ok(b)
  {
    EncodeBillFields(b);
    DueOnLastWord(b.dueDay);
    ParseIntToString(b.dueDay);
    assert ("$" + b.amount)[1..] == b.amount;
    assert RemoveChar("$" + b.amount, '$') == RemoveChar(b.amount, '$') == b.amount;
  }

  /** The fixed pieces of a bill's text do not hold "; ". */
  lemma LiteralsAvoidBillSeparator()
    ensures !Contains(FieldSeparator, BillSeparator)
    ensures !Contains(", $", BillSeparator)
    ensures !Contains(", due on ", BillSeparator)
  {
    if Contains(FieldSeparator, BillSeparator) {
      ContainsFirstChar(FieldSeparator, BillSeparator);
    }
    if Contains(", $", BillSeparator) {
      ContainsFirstChar(", $", BillSeparator);
    }
    if Contains(", due on ", BillSeparator) {
      ContainsFirstChar(", due on ", BillSeparator);
    }
  }

  /** A bill's text never holds the "; " that separates bills. */
  lemma EncodeBillAvoidsBillSeparator(b: Bill)
    requires Encodable(b)
    ensures !Contains(EncodeBill(b), BillSeparator)
  {
    var n := IntToString(b.dueDay);
    IntTextAvoids(b.dueDay);
    LiteralsAvoidBillSeparator();
    var x1 := b.frequency + FieldSeparator;
    ConcatAvoids(b.frequency, FieldSeparator, BillSeparator);
    var x2 := x1 + b.merchant;
    assert x1[|x1| - 1] == ' ';
    ConcatAvoids(x1, b.merchant, BillSeparator);
    var x3 := x2 + ", $";
    ConcatAvoids(x2, ", $", BillSeparator);
    var x4 := x3 + b.amount;
    assert x3[|x3| - 1] == '$';
    ConcatAvoids(x3, b.amount, BillSeparator);
    var x5 := x4 + ", due on ";
    ConcatAvoids(x4, ", due on ", BillSeparator);
    assert x5[|x5| - 1] == ' ';
    ConcatAvoids(x5, n, BillSeparator);
  }

  lemma {:induction false} DecodeAllOfDecodable(texts: seq<string>, bills: seq<Bill>)
    requires |texts| == |bills|
    requires forall i :: 0 <= i < |texts| ==> DecodeBill(texts[i]) == Ok(bills[i])
    ensures DecodeAll(texts) == Ok(bills)
    decreases |texts|
  {
    if |texts| > 0 {
      DecodeAllOfDecodable(texts[1..], bills[1..]);
      assert bills == [bills[0]] + bills[1..];
    }
  }

  /** A join of texts whose first is non-empty is non-empty. */
  lemma JoinNonEmpty(parts: seq<string>, sep: string)
    requires |parts| > 0 && |parts[0]| > 0
    ensures Join(parts, sep) != ""
  {
  }

  /**
    Saving then loading gives back the same bills, in order, when no text
    field holds ", " or "; " and no amount holds `$`; no bills save as the
    empty field, which loads as no bills.
   */
  lemma DecodeEncode(bills: seq<Bill>)
    requires forall i :: 0 <= i < |bills| ==> Encodable(bills[i])
    ensures Decode(Encode(bills)) == Ok(bills)
    ensures Encode(bills) == "" <==> |bills| == 0
  {
    var texts := seq(|bills|, i requires 0 <= i < |bills| => EncodeBill(bills[i]));
    if |bills| > 0 {
      JoinNonEmpty(texts, BillSeparator);
      forall i | 0 <= i < |texts|
        ensures !Contains(texts[i], BillSeparator) && DecodeBill(texts[i]) == Ok(bills[i])
      {
        EncodeBillAvoidsBillSeparator(bills[i]);
        DecodeEncodeBill(bills[i]);
      }
      SplitJoin(texts, BillSeparator);
      DecodeAllOfDecodable(texts, bills);
    }
  }

  /** An admitted bill can be confused with the separators only through a "; " in one of its texts. */
  lemma AdmissibleEncodable(b: Bill)
    requires Admissible(b)
    ensures Encodable(b) <==>
            !Contains(b.frequency, BillSeparator) && !Contains(b.merchant, BillSeparator) &&
            !Contains(b.amount, BillSeparator)
  {
    if Contains(b.frequency, FieldSeparator) {
      ContainsFirstChar(b.frequency, FieldSeparator);
    }
    if Contains(b.merchant, FieldSeparator) {
      ContainsFirstChar(b.merchant, FieldSeparator);
    }
    if Contains(b.amount, FieldSeparator) {
      ContainsFirstChar(b.amount, FieldSeparator);
    }
  }

  /*
    The example below is stated on the literal texts, but proved on variables
    standing for them, so that the verifier reasons from the lemmas about
    `Split` and `Strip` rather than by evaluating them on the literals.
   */

  /** The example line splits on commas into its four parts. */
  lemma ExampleLineParts(line: string, f: string, m: string, a: string, d: string)
    requires f == "weekly" && m == " A; B" && a == " 5.0" && d == " 3"
    requires line == Join([f, m, a, d], ",")
    ensures Split(line, ",") == [f, m, a, d]
  {
    ContainsChar(f, ',');
    ContainsChar(m, ',');
    ContainsChar(a, ',');
    ContainsChar(d, ',');
    SplitJoin([f, m, a, d], ",");
  }

  /** The example line is admitted, with "A; B" as the merchant. */
  lemma ExampleLineAdmitted(line: string, f: string, m: string, a: string, d: string)
    requires f == "weekly" && m == " A; B" && a == " 5.0" && d == " 3"
    requires line == Join([f, m, a, d], ",")
    ensures ParseEntry(line) == Accepted(Bill("weekly", "A; B", "5.0", 3))
  {
    ExampleLineParts(line, f, m, a, d);
    ExampleFrequency(f);
    ExampleMerchant(m);
    ExampleAmount(a);
    ExampleDueDay(d);
  }

  lemma ExampleFrequency(f: string)
    requires f == "weekly"
    ensures Lower(Strip(f)) == "weekly"
  {
    StripClean(f);
    assert Lower(f) == f;
  }

  lemma ExampleMerchant(m: string)
    requires m == " A; B"
    ensures Strip(m) == "A; B"
  {
    StripLeadingBlank(m);
    assert m[1..] == "A; B";
  }

  lemma ExampleAmount(a: string)
    requires a == " 5.0"
    ensures RemoveChar(Strip(a), '$') == "5.0"
  {
    StripLeadingBlank(a);
    assert a[1..] == "5.0";
    assert RemoveChar(a[1..], '$') == "5.0";
  }

  lemma ExampleDueDay(d: string)
    requires d == " 3"
    ensures ParseInt(Strip(d)) == Some(3)
  {
    StripLeadingBlank(d);
    SmallIntText(3);
    assert d[1..] == IntToString(3);
    ParseIntToString(3);
  }

  /** The example's saved field splits on "; " inside the merchant. */
  lemma ExampleFieldParts(field: string, x: string, y: string)
    requires x == "weekly, A" && y == "B, $5.0, due on 3"
    requires field == x + BillSeparator + y
    ensures Split(field, BillSeparator) == [x, y]
  {
    AvoidsFirstChar(x, BillSeparator);
    AvoidsFirstChar(y, BillSeparator);
    SplitFirstPiece(x, BillSeparator, y);
    SplitWithoutSeparator(y, BillSeparator);
  }

  /** The first half of the example's bill has only two fields. */
  lemma ExampleFirstHalf(text: string, f: string, m: string)
    requires f == "weekly" && m == "A"
    requires text == f + FieldSeparator + m
    ensures Split(text, FieldSeparator) == [f, m]
  {
    AvoidsFirstChar(f, FieldSeparator);
    AvoidsFirstChar(m, FieldSeparator);
    SplitFirstPiece(f, FieldSeparator, m);
    SplitWithoutSeparator(m, FieldSeparator);
  }

  /** The example bill's saved text. */
  lemma ExampleEncoded()
    ensures Encode([Bill("weekly", "A; B", "5.0", 3)]) == "weekly, A; B, $5.0, due on 3"
  {
    var bill := Bill("weekly", "A; B", "5.0", 3);
    assert Encode([bill]) == EncodeBill(bill);
    SmallIntText(3);
  }

  /** Loading the example's saved text fails: its first piece has two fields. */
  lemma ExampleReloadFails(field: string, x: string, y: string)
    requires x == "weekly, A" && y == "B, $5.0, due on 3"
    requires field == x + BillSeparator + y
    ensures Decode(field) == Err(WrongFieldCount)
  {
    ExampleFieldParts(field, x, y);
    assert field != "";
    ExampleFirstHalf(x, "weekly", "A");
    assert DecodeBill(x) == Err(WrongFieldCount);
  }

  /**
    The line check as written admits a merchant holding "; ". The saved field
    then splits that bill in two, and loading fails.
   */
  lemma SemicolonMerchantBreaksReload()
    ensures ParseEntry("weekly, A; B, 5.0, 3") == Accepted(Bill("weekly", "A; B", "5.0", 3))
    ensures Encode([Bill("weekly", "A; B", "5.0", 3)]) == "weekly, A; B, $5.0, due on 3"
    ensures Decode("weekly, A; B, $5.0, due on 3") == Err(WrongFieldCount)
  {
    ExampleLineAccepted();
    ExampleEncoded();
    ExampleFieldRejected();
  }

  lemma ExampleLineAccepted()
    ensures ParseEntry("weekly, A; B, 5.0, 3") == Accepted(Bill("weekly", "A; B", "5.0", 3))
  {
    assert Join(["weekly", " A; B", " 5.0", " 3"], ",") == "weekly, A; B, 5.0, 3";
    ExampleLineAdmitted("weekly, A; B, 5.0, 3", "weekly", " A; B", " 5.0", " 3");
  }

  lemma ExampleFieldRejected()
    ensures Decode("weekly, A; B, $5.0, due on 3") == Err(WrongFieldCount)
  {
    ExampleReloadFails("weekly, A; B, $5.0, due on 3", "weekly, A", "B, $5.0, due on 3");
  }

  /**
    The line check as intended: as written, but a line whose stored texts
    would hold "; " is turned away, so every admitted bill can be saved and
    loaded back.
   */
  function ParseEntryChecked(line: string): (r: EntryOutcome)
    ensures r.Accepted? ==> Admissible(r.bill) && Encodable(r.bill)
    ensures r.Accepted? ==> r == ParseEntry(line)
    ensures ParseEntry(line).Rejected? ==> r == ParseEntry(line)
    ensures r == Rejected(SeparatorInText) ==> ParseEntry(line).Accepted? && !Encodable(ParseEntry(line).bill)
    ensures ParseEntry(line).Accepted? && Encodable(ParseEntry(line).bill) ==> r == ParseEntry(line)
    ensures ParseEntry(line).Accepted? && !Encodable(ParseEntry(line).bill) ==> r == Rejected(SeparatorInText)
  {
    match ParseEntry(line)
    case Rejected(reason) => Rejected(reason)
    case Accepted(b) =>
      AdmissibleEncodable(b);
      if Contains(b.frequency, BillSeparator) || Contains(b.merchant, BillSeparator) ||
         Contains(b.amount, BillSeparator)
      then Rejected(SeparatorInText)
      else Accepted(b)
  }

  /** One pass of the entry loop with the corrected check. */
  function AddEntryChecked(bills: seq<Bill>, line: string): (r: seq<Bill>)
    ensures ParseEntryChecked(line).Rejected? ==> r == bills
    ensures ParseEntryChecked(line).Accepted? ==> r == bills + [ParseEntryChecked(line).bill]
  {
    match ParseEntryChecked(line)
    case Accepted(b) => bills + [b]
    case Rejected(_) => bills
  }

  /** One pass of the corrected loop keeps every bill encodable. */
  lemma AddEntryCheckedKeepsEncodable(bills: seq<Bill>, line: string)
    requires forall i :: 0 <= i < |bills| ==> Encodable(bills[i])
    ensures var next := AddEntryChecked(bills, line);
            forall i :: 0 <= i < |next| ==> Encodable(next[i])
  {
    match ParseEntryChecked(line)
    case Accepted(b) =>
      var next := bills + [b];
      assert forall i :: 0 <= i < |bills| ==> next[i] == bills[i];
    case Rejected(_) =>
  }

  /** The entry loop with the corrected check. */
  function AddEntriesChecked(bills: seq<Bill>, lines: seq<string>): (r: seq<Bill>)
    requires forall i :: 0 <= i < |bills| ==> Encodable(bills[i])
    ensures forall i :: 0 <= i < |r| ==> Encodable(r[i])
    ensures r == bills + AdmittedChecked(lines)
    decreases |lines|
  {
    if |lines| == 0 then bills
    else
      AddEntryCheckedKeepsEncodable(bills, lines[0]);
      AdmittedCheckedStep(bills, lines);
      AddEntriesChecked(AddEntryChecked(bills, lines[0]), lines[1..])
  }

  /**
    Reference for the corrected entry loop: each typed line's bill, in order,
    for the lines the corrected check admits. These are exactly the lines the
    written check admits with a bill that can be saved.
   */
  function AdmittedChecked(lines: seq<string>): (r: seq<Bill>)
    ensures |r| <= |lines|
    decreases |lines|
  {
    if |lines| == 0 then []
    else
      var rest := AdmittedChecked(lines[1..]);
      match ParseEntryChecked(lines[0])
      case Accepted(b) => [b] + rest
      case Rejected(_) => rest
  }

  /** Appending the first line's checked bill, then the rest's, is appending all the lines' checked bills. */
  lemma AdmittedCheckedStep(bills: seq<Bill>, lines: seq<string>)
    requires |lines| > 0
    ensures AddEntryChecked(bills, lines[0]) + AdmittedChecked(lines[1..]) == bills + AdmittedChecked(lines)
  {
    var rest := AdmittedChecked(lines[1..]);
    match ParseEntryChecked(lines[0])
    case Accepted(b) => AppendAdmitted(bills, b, rest);
    case Rejected(_) =>
  }

  /** With the corrected check, whatever lines are typed, the saved bills load back unchanged. */
  lemma CheckedEntriesReload(lines: seq<string>)
    ensures var bills := AddEntriesChecked([], lines);
            Decode(Encode(bills)) == Ok(bills)
  {
    DecodeEncode(AddEntriesChecked([], lines));
  }
}

=== FILE: calendar.dfy ===
/**
  The proleptic Gregorian calendar of Python's `datetime` module, restricted to
  what the bill report needs: leap years, month lengths, the day number of a
  date (`toordinal`), ordering, adding a forward number of days, and replacing
  the day of the month.
 */
module Calendar {
  import opened Results

  /** A calendar date; time of day is not modelled. */
  datatype Date = Date(year: int, month: int, day: int)

  /** The two ways `datetime` arithmetic in the report can fail. */
  datatype DateError =
    | DayOutOfRange   // `replace(day=…)` with a day the month does not have (ValueError)
    | Overflow        // a result past 9999-12-31 (OverflowError)

  const MaxYear: int := 9999

  predicate IsLeap(year: int) {
    year % 4 == 0 && (year % 100 != 0 || year % 400 == 0)
  }

  function DaysInYear(year: int): int {
    if IsLeap(year) then 366 else 365
  }

  function DaysInMonth(year: int, month: int): (n: int)
    requires 1 <= month <= 12
    ensures 28 <= n <= 31
    ensures n == 29 <==> month == 2 && IsLeap(year)
    ensures n == 28 <==> month == 2 && !IsLeap(year)
    ensures n == 30 <==> month in {4, 6, 9, 11}
  {
    if month == 2 then (if IsLeap(year) then 29 else 28)
    else if month in {4, 6, 9, 11} then 30
    else 31
  }

  /** A date whose fields are in range, without the upper bound on the year. */
  predicate WellFormed(d: Date) {
    && 1 <= d.year
    && 1 <= d.month <= 12
    && 1 <= d.day <= DaysInMonth(d.year, d.month)
  }

  /** A date that `datetime` can represent. */
  predicate Valid(d: Date) {
    WellFormed(d) && d.year <= MaxYear
  }

  function MaxDate(): Date {
    Date(MaxYear, 12, 31)
  }

  /** Lexicographic (year, month, day) comparison: `a < b` on dates. */
  predicate Before(a: Date, b: Date) {
    || a.year < b.year
    || (a.year == b.year && a.month < b.month)
    || (a.year == b.year && a.month == b.month && a.day < b.day)
  }

  /** Days in the years before `year`, counted from 0001-01-01. */
  function DaysBeforeYear(year: int): int
    requires 1 <= year
  {
    if year == 1 then 0 else DaysBeforeYear(year - 1) + DaysInYear(year - 1)
  }

  /** Days in the months of `year` before `month`. */
  function DaysBeforeMonth(year: int, month: int): int
    requires 1 <= month <= 12
  {
    var leapDay := if month > 2 && IsLeap(year) then 1 else 0;
    leapDay +
    (match month
     case 1 => 0
     case 2 => 31
     case 3 => 59
     case 4 => 90
     case 5 => 120
     case 6 => 151
     case 7 => 181
     case 8 => 212
     case 9 => 243
     case 10 => 273
     case 11 => 304
     case _ => 334)
  }

  /** Python's `date.toordinal()`: 0001-01-01 is day 1. */
  function DayNumber(d: Date): int
    requires WellFormed(d)
  {
    DaysBeforeYear(d.year) + DaysBeforeMonth(d.year, d.month) + d.day
  }

  function MaxDayNumber(): int {
    DayNumber(MaxDate())
  }

  /** `n / k` grows by one exactly when `n` reaches a multiple of `k`. */
  lemma DivStep(n: int, k: int)
    requires 1 <= n && k in {4, 100, 400}
    ensures n / k - (n - 1) / k == (if n % k == 0 then 1 else 0)
  {
  }

  /** The closed form `datetime` uses for the days before a year. */
  lemma {:induction false} DaysBeforeYearClosedForm(year: int)
    requires 1 <= year
    ensures var y := year - 1; DaysBeforeYear(year) == y * 365 + y / 4 - y / 100 + y / 400
    decreases year
  {
    if year > 1 {
      var y := year - 1;
      DaysBeforeYearClosedForm(year - 1);
      DivStep(y, 4);
      DivStep(y, 100);
      DivStep(y, 400);
      LeapCount(y);
      assert y * 365 == (y - 1) * 365 + 365;
    }
  }

  /** Leap years counted by inclusion and exclusion over 4, 100 and 400. */
  lemma LeapCount(y: int)
    ensures DaysInYear(y) - 365 ==
            (if y % 4 == 0 then 1 else 0) - (if y % 100 == 0 then 1 else 0) + (if y % 400 == 0 then 1 else 0)
  {
    if y % 100 == 0 {
      var q := y / 100;
      assert y == 4 * (25 * q);
    }
    if y % 400 == 0 {
      var q := y / 400;
      assert y == 100 * (4 * q);
    }
  }

  lemma DaysBeforeNextYear(year: int)
    requires 1 <= year
    ensures DaysBeforeYear(year + 1) == DaysBeforeYear(year) + DaysInYear(year)
  {
  }

  lemma {:induction false} DaysBeforeYearGrows(y1: int, y2: int)
    requires 1 <= y1 <= y2
    ensures DaysBeforeYear(y1) + 365 * (y2 - y1) <= DaysBeforeYear(y2)
    decreases y2 - y1
  {
    if y1 < y2 {
      DaysBeforeNextYear(y1);
      DaysBeforeYearGrows(y1 + 1, y2);
    }
  }

  /** The month table ends where the year does. */
  lemma EndOfYear(year: int)
    ensures DaysBeforeMonth(year, 12) + DaysInMonth(year, 12) == DaysInYear(year)
  {
  }

  lemma DaysBeforeMonthGrows(year: int, m1: int, m2: int)
    requires 1 <= m1 < m2 <= 12
    ensures DaysBeforeMonth(year, m1) + DaysInMonth(year, m1) <= DaysBeforeMonth(year, m2)
    ensures m2 == m1 + 1 ==> DaysBeforeMonth(year, m1) + DaysInMonth(year, m1) == DaysBeforeMonth(year, m2)
  {
  }

  /** A date's day number lies within its year. */
  lemma DayNumberInYear(d: Date)
    requires WellFormed(d)
    ensures DaysBeforeYear(d.year) < DayNumber(d) <= DaysBeforeYear(d.year) + DaysInYear(d.year)
  {
    if d.month < 12 {
      DaysBeforeMonthGrows(d.year, d.month, 12);
    }
    EndOfYear(d.year);
  }

  /** The calendar order and the day-number order agree. */
  lemma {:induction false} BeforeIsDayNumberOrder(a: Date, b: Date)
    requires WellFormed(a) && WellFormed(b)
    ensures Before(a, b) <==> DayNumber(a) < DayNumber(b)
  {
    if a.year < b.year {
      LaterYear(a, b);
    } else if b.year < a.year {
      LaterYear(b, a);
    } else if a.month < b.month {
      DaysBeforeMonthGrows(a.year, a.month, b.month);
    } else if b.month < a.month {
      DaysBeforeMonthGrows(a.year, b.month, a.month);
    }
  }

  lemma LaterYear(a: Date, b: Date)
    requires WellFormed(a) && WellFormed(b) && a.year < b.year
    ensures DayNumber(a) < DayNumber(b)
  {
    DayNumberInYear(a);
    DayNumberInYear(b);
    DaysBeforeNextYear(a.year);
    DaysBeforeYearGrows(a.year + 1, b.year);
  }

  /** Distinct well-formed dates have distinct day numbers. */
  lemma DayNumberInjective(a: Date, b: Date)
    requires WellFormed(a) && WellFormed(b)
    requires DayNumber(a) == DayNumber(b)
    ensures a == b
  {
    BeforeIsDayNumberOrder(a, b);
    BeforeIsDayNumberOrder(b, a);
  }

  /** A well-formed date is representable exactly when it is not past the maximum date. */
  lemma ValidIsAtMostMax(d: Date)
    requires WellFormed(d)
    ensures Valid(d) <==> DayNumber(d) <= MaxDayNumber()
  {
    BeforeIsDayNumberOrder(MaxDate(), d);
  }

  /** The first day of the month after `d`'s month. */
  function NextMonthStart(d: Date): (r: Date)
    requires WellFormed(d)
    ensures WellFormed(r) && r.day == 1
    ensures DayNumber(r) == DayNumber(Date(d.year, d.month, DaysInMonth(d.year, d.month))) + 1
  {
    if d.month == 12 then
      DaysBeforeNextYear(d.year);
      EndOfYear(d.year);
      Date(d.year + 1, 1, 1)
    else
      DaysBeforeMonthGrows(d.year, d.month, d.month + 1);
      Date(d.year, d.month + 1, 1)
  }

  /** The date `n` days after `d`, on the unbounded calendar, one month at a time. */
  function Shift(d: Date, n: nat): (r: Date)
    requires WellFormed(d)
    ensures WellFormed(r)
    ensures DayNumber(r) == DayNumber(d) + n
    decreases n
  {
    var length := DaysInMonth(d.year, d.month);
    if d.day + n <= length then Date(d.year, d.month, d.day + n)
    else Shift(NextMonthStart(d), n - (length - d.day + 1))
  }

  /** `d + timedelta(days=n)` for a forward `n`: fails past the largest representable date. */
  function AddDays(d: Date, n: nat): (r: Result<Date, DateError>)
    requires Valid(d)
    ensures r.Ok? <==> DayNumber(d) + n <= MaxDayNumber()
    ensures r.Ok? ==> Valid(r.value) && DayNumber(r.value) == DayNumber(d) + n
    ensures r.Err? ==> r.error == Overflow
  {
    var s := Shift(d, n);
    ValidIsAtMostMax(s);
    if s.year <= MaxYear then Ok(s) else Err(Overflow)
  }

  /** `d.replace(day=day)`: same year and month; fails when the month has no such day. */
  function ReplaceDay(d: Date, day: int): (r: Result<Date, DateError>)
    requires Valid(d)
    ensures r.Ok? <==> 1 <= day <= DaysInMonth(d.year, d.month)
    ensures r.Ok? ==> Valid(r.value) && r.value.year == d.year && r.value.month == d.month && r.value.day == day
    ensures r.Err? ==> r.error == DayOutOfRange
  {
    if 1 <= day <= DaysInMonth(d.year, d.month) then Ok(Date(d.year, d.month, day))
    else Err(DayOutOfRange)
  }

  /** Adding days is additive. */
  lemma AddDaysCompose(d: Date, m: nat, n: nat)
    requires Valid(d)
    requires AddDays(d, m).Ok?
    ensures AddDays(AddDays(d, m).value, n) == AddDays(d, m + n)
  {
    var a := AddDays(AddDays(d, m).value, n);
    var b := AddDays(d, m + n);
    if a.Ok? {
      DayNumberInjective(a.value, b.value);
    }
  }
}

=== FILE: due_dates.dfy ===
/**
  The due-date resolver of the bill report: from a bill's frequency text, its
  day of the month and today's date, the date the report shows for the bill.
 */
module DueDates {
  import opened Results
  import opened Calendar

  /** The outcome of the forward-stepping loop: the date reached and how many steps it took. */
  datatype Stepped = Stepped(due: Date, steps: nat)

  /** The date reached from `d` after `k` forward steps of `step` days each. */
  function StepForward(d: Date, step: nat, k: nat): (r: Date)
    requires WellFormed(d)
    ensures WellFormed(r)
    decreases k
  {
    if k == 0 then d else StepForward(Shift(d, step), step, k - 1)
  }

  /** `k` steps of `step` days move the day number by `step * k`. */
  lemma {:induction false} StepForwardDayNumber(d: Date, step: nat, k: nat)
    requires WellFormed(d)
    ensures DayNumber(StepForward(d, step, k)) == DayNumber(d) + step * k
    decreases k
  {
    if k > 0 {
      StepForwardDayNumber(Shift(d, step), step, k - 1);
      assert step * k == step + step * (k - 1);
    }
  }

  /**
    The `while due_date < today: due_date += timedelta(...)` loop: step forward by
    `step` days until the date is no longer before `today`.
   */
  function Advance(due: Date, today: Date, step: nat): (r: Result<Stepped, DateError>)
    requires Valid(due) && Valid(today) && step > 0
    ensures r.Ok? ==> Valid(r.value.due) && !Before(r.value.due, today)
    ensures r.Ok? ==> r.value.due == StepForward(due, step, r.value.steps)
    ensures r.Ok? && r.value.steps > 0 ==> Before(StepForward(due, step, r.value.steps - 1), today)
    ensures !Before(due, today) ==> r == Ok(Stepped(due, 0))
    ensures r.Err? ==> r.error == Overflow && DayNumber(today) + step > MaxDayNumber() + 1
    decreases DayNumber(today) - DayNumber(due)
  {
    BeforeIsDayNumberOrder(due, today);
    if Before(due, today) then
      var next :- AddDays(due, step);
      var rest :- Advance(next, today, step);
      Ok(Stepped(rest.due, rest.steps + 1))
    else
      Ok(Stepped(due, 0))
  }

  /** The loop takes the fewest steps that cover the gap: the ceiling of gap / step. */
  lemma AdvanceTakesCeilingSteps(due: Date, today: Date, step: nat)
    requires Valid(due) && Valid(today) && step > 0
    requires Advance(due, today, step).Ok?
    ensures Advance(due, today, step).value.steps == StepsToCover(DayNumber(today) - DayNumber(due), step)
  {
    var gap := DayNumber(today) - DayNumber(due);
    AdvanceBounds(due, today, step);
    CeilingOfBounds(gap, step, Advance(due, today, step).value.steps);
  }

  /** The gap the loop covers lies between one step fewer than it takes and the steps it takes. */
  lemma AdvanceBounds(due: Date, today: Date, step: nat)
    requires Valid(due) && Valid(today) && step > 0
    requires Advance(due, today, step).Ok?
    ensures var k := Advance(due, today, step).value.steps;
            var gap := DayNumber(today) - DayNumber(due);
            && gap <= step * k
            && (k == 0 ==> gap <= 0)
            && (k > 0 ==> step * (k - 1) < gap)
  {
    var r := Advance(due, today, step).value;
    ReachedCoversGap(due, today, step, r.steps, r.due);
    if r.steps == 0 {
      BeforeIsDayNumberOrder(due, today);
    } else {
      StepShortOfGap(due, today, step, r.steps);
    }
  }

  /** A date not before today, reached by `k` steps, covers the gap in `step * k` days. */
  lemma ReachedCoversGap(due: Date, today: Date, step: nat, k: nat, reached: Date)
    requires WellFormed(due) && WellFormed(today)
    requires reached == StepForward(due, step, k) && !Before(reached, today)
    ensures DayNumber(today) - DayNumber(due) <= step * k
  {
    StepForwardDayNumber(due, step, k);
    BeforeIsDayNumberOrder(reached, today);
  }

  /** When one step fewer is still before today, `step * (k - 1)` days fall short of the gap. */
  lemma StepShortOfGap(due: Date, today: Date, step: nat, k: nat)
    requires WellFormed(due) && WellFormed(today) && k > 0
    requires Before(StepForward(due, step, k - 1), today)
    ensures step * (k - 1) < DayNumber(today) - DayNumber(due)
  {
    StepForwardDayNumber(due, step, k - 1);
    BeforeIsDayNumberOrder(StepForward(due, step, k - 1), today);
  }

  /** The number of `step`-day steps needed to cover `gap` days: none for no gap, else the ceiling of gap / step. */
  function StepsToCover(gap: int, step: int): int
    requires step > 0
  {
    if gap <= 0 then 0 else (gap + step - 1) / step
  }

  /** The fewest steps that cover a gap, from the bounds the loop leaves behind. */
  lemma CeilingOfBounds(gap: int, step: int, k: nat)
    requires step > 0 && gap <= step * k
    requires k == 0 ==> gap <= 0
    requires k > 0 ==> step * (k - 1) < gap
    ensures k == StepsToCover(gap, step)
  {
    if k > 0 {
      MulAwayFromZero(step, k - 1);
      CeilingUnique(gap, step, k);
    }
  }

  /** The frequency texts the report recognises; any other text leaves the anchor date unchanged. */
  const Monthly: string := "monthly"
  const Weekly: string := "weekly"
  const Fortnightly: string := "2 weeks"

  /** The first candidate: today's year and month with the bill's day of the month. */
  function Anchor(today: Date, dueDay: int): (r: Result<Date, DateError>)
    requires Valid(today)
    ensures r.Ok? <==> 1 <= dueDay <= DaysInMonth(today.year, today.month)
    ensures r.Ok? ==> r.value == Date(today.year, today.month, dueDay) && Valid(r.value)
    ensures r.Err? ==> r.error == DayOutOfRange
  {
    ReplaceDay(today, dueDay)
  }

  /**
    The due date the report shows for a bill with the given frequency text and
    day of the month: the anchor, moved forward according to the frequency.
   */
  function ResolveDue(frequency: string, dueDay: int, today: Date): (r: Result<Date, DateError>)
    requires Valid(today)
    ensures r.Ok? ==> Valid(r.value)
    ensures Anchor(today, dueDay).Err? ==> r == Err(DayOutOfRange)
  {
    var anchor :- Anchor(today, dueDay);
    if frequency == Monthly then
      if Before(anchor, today) then
        var later :- AddDays(anchor, 30);
        ReplaceDay(later, dueDay)
      else
        Ok(anchor)
    else if frequency == Weekly then
      var s :- Advance(anchor, today, 7);
      Ok(s.due)
    else if frequency == Fortnightly then
      var s :- Advance(anchor, today, 14);
      Ok(s.due)
    else
      Ok(anchor)
  }

  /** The number of days a stepping frequency moves by. */
  function StepOf(frequency: string): nat
  {
    if frequency == Weekly then 7 else 14
  }

  /**
    `due` is reached from `anchor` by `k` steps of `step` days, and if any step
    was taken, the date one step earlier was still before `today`.
   */
  predicate FirstStepReaching(anchor: Date, today: Date, step: nat, k: nat, due: Date)
    requires WellFormed(anchor)
  {
    && due == StepForward(anchor, step, k)
    && (k > 0 ==> Before(StepForward(anchor, step, k - 1), today))
  }

  /** The monthly, weekly and two-weekly frequency texts are distinct. */
  lemma FrequenciesDistinct()
    ensures Weekly != Monthly && Fortnightly != Monthly && Fortnightly != Weekly
  {
    assert Weekly[0] != Monthly[0];
    assert Fortnightly[0] != Monthly[0];
    assert Fortnightly[0] != Weekly[0];
  }

  /**
    Weekly and two-weekly bills: the due date is the first date on or after
    today reached from the anchor by whole steps, and an anchor that has not
    passed is kept as it is.
   */
  lemma SteppedResolution(frequency: string, dueDay: int, today: Date)
    requires Valid(today)
    requires frequency == Weekly || frequency == Fortnightly
    requires Anchor(today, dueDay).Ok?
    ensures ResolveDue(frequency, dueDay, today).Ok? ==> !Before(ResolveDue(frequency, dueDay, today).value, today)
    ensures ResolveDue(frequency, dueDay, today).Ok? ==>
              exists k: nat :: FirstStepReaching(Anchor(today, dueDay).value, today, StepOf(frequency), k, ResolveDue(frequency, dueDay, today).value)
    ensures !Before(Anchor(today, dueDay).value, today) ==> ResolveDue(frequency, dueDay, today) == Anchor(today, dueDay)
    ensures ResolveDue(frequency, dueDay, today).Err? ==> ResolveDue(frequency, dueDay, today).error == Overflow
  {
    FrequenciesDistinct();
    var anchor := Anchor(today, dueDay).value;
    var s := Advance(anchor, today, StepOf(frequency));
    var r := ResolveDue(frequency, dueDay, today);
    assert r == (if s.Ok? then Ok(s.value.due) else Err(s.error));
    if s.Ok? {
      assert FirstStepReaching(anchor, today, StepOf(frequency), s.value.steps, r.value);
    }
  }

  /**
    Monthly bills: an anchor that has not passed is kept; a passed one is moved
    30 days on and given the bill's day of the month again. The result is then
    either strictly after today or the passed anchor itself, and it is the
    passed anchor exactly when the bill is due on the 1st of a 31-day month.
   */
  lemma MonthlyResolution(dueDay: int, today: Date)
    requires Valid(today)
    requires Anchor(today, dueDay).Ok?
    ensures var anchor := Anchor(today, dueDay).value;
            var r := ResolveDue(Monthly, dueDay, today);
            && (!Before(anchor, today) ==> r == Ok(anchor))
            && (Before(anchor, today) ==>
                  r == (match AddDays(anchor, 30)
                        case Ok(later) => ReplaceDay(later, dueDay)
                        case Err(e) => Err(e)))
            && (r.Ok? ==> r.value.day == dueDay)
            && (r.Ok? && Before(anchor, today) ==>
                  (Before(today, r.value) || r.value == anchor) &&
                  (Before(r.value, today) <==> dueDay == 1 && DaysInMonth(today.year, today.month) == 31))
  {
    var anchor := Anchor(today, dueDay).value;
    var r := ResolveDue(Monthly, dueDay, today);
    if Before(anchor, today) && r.Ok? {
      var later := AddDays(anchor, 30).value;
      BeforeIsDayNumberOrder(anchor, later);
      if later.year == anchor.year && later.month == anchor.month {
        assert dueDay + 30 <= DaysInMonth(today.year, today.month) by {
          ShiftWithinMonth(anchor, 30);
        }
      } else {
        assert dueDay + 30 > DaysInMonth(today.year, today.month) by {
          ShiftWithinMonth(anchor, 30);
        }
      }
    }
  }

  /** Moving forward stays in the same month exactly when the month has room. */
  lemma ShiftWithinMonth(d: Date, n: nat)
    requires WellFormed(d)
    ensures var s := Shift(d, n);
            (s.year == d.year && s.month == d.month) <==> d.day + n <= DaysInMonth(d.year, d.month)
  {
    var s := Shift(d, n);
    if d.day + n > DaysInMonth(d.year, d.month) {
      var m := NextMonthStart(d);
      BeforeIsDayNumberOrder(d, m);
      BeforeIsDayNumberOrder(m, s);
    }
  }

  /** Any other frequency text, "bi-weekly" included, leaves the due date at the anchor. */
  lemma OtherFrequencyKeepsAnchor(frequency: string, dueDay: int, today: Date)
    requires Valid(today)
    requires frequency != Monthly && frequency != Weekly && frequency != Fortnightly
    ensures ResolveDue(frequency, dueDay, today) == Anchor(today, dueDay)
  {
  }

  /** The "bi-weekly" the bill prompt offers is not one of the recognised texts. */
  lemma BiWeeklyIsUnrecognised()
    ensures "bi-weekly" != Monthly && "bi-weekly" != Weekly && "bi-weekly" != Fortnightly
  {
    assert "bi-weekly"[0] != Monthly[0];
    assert "bi-weekly"[0] != Weekly[0];
    assert "bi-weekly"[0] != Fortnightly[0];
  }

  /** A monthly bill due on the 1st, with today the 15th of January: the result is still the 1st, before today. */
  lemma MonthlyCanStayBehind()
    ensures ResolveDue(Monthly, 1, Date(2024, 1, 15)) == Ok(Date(2024, 1, 1))
    ensures Before(Date(2024, 1, 1), Date(2024, 1, 15))
  {
  }

  /** A monthly bill due on the 29th, with today 2023-01-30: 30 days on is 28 February, which has no 29th. */
  lemma MonthlyCanFailInShortMonth()
    ensures ResolveDue(Monthly, 29, Date(2023, 1, 30)) == Err(DayOutOfRange)
  {
    assert Shift(Date(2023, 1, 29), 30) == Date(2023, 2, 28);
  }

  function Min(a: int, b: int): int {
    if a < b then a else b
  }

  /**
    The monthly step as intended: keep the anchor if it has not passed, else
    take the bill's day in the next calendar month, or that month's last day
    when it is shorter.
   */
  function NextMonthlyDue(dueDay: int, today: Date): (r: Result<Date, DateError>)
    requires Valid(today)
    ensures r.Ok? ==> Valid(r.value) && !Before(r.value, today)
    ensures Anchor(today, dueDay).Err? ==> r == Err(DayOutOfRange)
    ensures Anchor(today, dueDay).Ok? && !Before(Anchor(today, dueDay).value, today) ==> r == Anchor(today, dueDay)
    ensures r.Ok? && Before(Anchor(today, dueDay).value, today) ==>
              && r.value == NextMonthStart(today).(day := r.value.day)
              && r.value.day == Min(dueDay, DaysInMonth(r.value.year, r.value.month))
    ensures r.Err? && Anchor(today, dueDay).Ok? ==> r.error == Overflow && today.year == MaxYear && today.month == 12
  {
    var anchor :- Anchor(today, dueDay);
    if !Before(anchor, today) then Ok(anchor)
    else
      var first := NextMonthStart(today);
      if first.year > MaxYear then Err(Overflow)
      else Ok(first.(day := Min(dueDay, DaysInMonth(first.year, first.month))))
  }

  /** Where the anchor has not passed, the intended and the written monthly step agree. */
  lemma NextMonthlyDueAgreesOnAnchor(dueDay: int, today: Date)
    requires Valid(today)
    requires Anchor(today, dueDay).Ok? && !Before(Anchor(today, dueDay).value, today)
    ensures NextMonthlyDue(dueDay, today) == ResolveDue(Monthly, dueDay, today)
  {
  }

  /** The intended step on the two inputs where the written one goes wrong. */
  lemma NextMonthlyDueFixesExamples()
    ensures NextMonthlyDue(1, Date(2024, 1, 15)) == Ok(Date(2024, 2, 1))
    ensures NextMonthlyDue(29, Date(2023, 1, 30)) == Ok(Date(2023, 2, 28))
  {
  }

  /**
    The resolver with the intended monthly step and every other branch as
    written: for each recognised frequency the due date is never before today.
   */
  function ResolveDueCorrected(frequency: string, dueDay: int, today: Date): (r: Result<Date, DateError>)
    requires Valid(today)
    ensures r.Ok? ==> Valid(r.value)
    ensures r.Ok? && (frequency == Monthly || frequency == Weekly || frequency == Fortnightly) ==>
              !Before(r.value, today)
    ensures frequency != Monthly ==> r == ResolveDue(frequency, dueDay, today)
    ensures Anchor(today, dueDay).Err? ==> r == Err(DayOutOfRange)
    ensures frequency == Monthly ==> r == NextMonthlyDue(dueDay, today)
    ensures Anchor(today, dueDay).Ok? && r.Err? ==> r.error == Overflow
  {
    FrequenciesDistinct();
    if frequency == Monthly then NextMonthlyDue(dueDay, today)
    else if (frequency == Weekly || frequency == Fortnightly) && Anchor(today, dueDay).Ok? then
      SteppedResolution(frequency, dueDay, today);
      ResolveDue(frequency, dueDay, today)
    else
      ResolveDue(frequency, dueDay, today)
  }

  /** Division is determined by any quotient/remainder pair with the remainder in range. */
  lemma DivUnique(a: int, s: int, q: int, r: int)
    requires s > 0 && a == s * q + r && 0 <= r < s
    ensures a / s == q
  {
    var q0 := a / s;
    var r0 := a % s;
    assert s * (q0 - q) == r - r0;
    MulAwayFromZero(s, q0 - q);
  }

  /** A positive factor times a nonzero integer is at least that factor in size. */
  lemma MulAwayFromZero(s: int, d: int)
    requires s > 0
    ensures d >= 1 ==> s * d >= s
    ensures d <= -1 ==> s * d <= -s
  {
  }

  /** `k` is the ceiling of gap / step when k - 1 steps fall short of the gap and k steps do not. */
  lemma CeilingUnique(gap: int, step: int, k: int)
    requires step > 0 && k >= 1
    requires step * (k - 1) < gap <= step * k
    ensures (gap + step - 1) / step == k
  {
    assert step * k == step * (k - 1) + step;
    DivUnique(gap + step - 1, step, k, gap + step - 1 - step * k);
  }
}

=== FILE: results.dfy ===
/** Failure-compatible result type used for the exceptions the bot raises. */
module Results {

  /** Either a value, or the error the bot raises instead. */
  datatype Result<+T, +E> = Ok(value: T) | Err(error: E) {

    predicate IsFailure() {
      Err?
    }

    function PropagateFailure<U>(): Result<U, E>
      requires Err?
    {
      Err(error)
    }

    function Extract(): T
      requires Ok?
    {
      value
    }
  }

  /** A plain optional value, for parsers that either succeed or do not. */
  datatype Option<+T> = None | Some(value: T)
}

=== FILE: strings.dfy ===
/**
  The few `str` operations the bill code uses, on `seq<char>`: `split` with a
  separator, `join`, `strip`, `lower`, `replace(c, '')`, `str(int)` and
  `int(str)`.
 */
module Strings {
  import opened Results

  /** `t in s` for a non-empty `t`: some slice of `s` equals `t`. */
  predicate Contains(s: string, t: string)
    requires |t| > 0
    decreases |s|
  {
    |t| <= |s| && (s[..|t|] == t || Contains(s[1..], t))
  }

  /** `s.split(sep)`: the pieces between the leftmost non-overlapping occurrences of `sep`. */
  function Split(s: string, sep: string): (parts: seq<string>)
    requires |sep| > 0
    ensures |parts| >= 1
    decreases |s|
  {
    if |s| < |sep| then [s]
    else if s[..|sep|] == sep then [""] + Split(s[|sep|..], sep)
    else
      var rest := Split(s[1..], sep);
      [[s[0]] + rest[0]] + rest[1..]
  }

  /** `sep.join(parts)`. */
  function Join(parts: seq<string>, sep: string): string
  {
    if |parts| == 0 then ""
    else if |parts| == 1 then parts[0]
    else parts[0] + sep + Join(parts[1..], sep)
  }

  /** A separator that cannot overlap itself: one character, or two different ones. */
  predicate SelfDisjoint(sep: string) {
    |sep| == 1 || (|sep| == 2 && sep[0] != sep[1])
  }

  /** A text without the separator splits into itself alone. */
  lemma {:induction false} SplitWithoutSeparator(s: string, sep: string)
    requires |sep| > 0 && !Contains(s, sep)
    ensures Split(s, sep) == [s]
    decreases |s|
  {
    if |s| >= |sep| {
      SplitWithoutSeparator(s[1..], sep);
      assert [s[0]] + s[1..] == s;
    }
  }

  /** A first piece without the separator is split off exactly. */
  lemma {:induction false} SplitFirstPiece(a: string, sep: string, b: string)
    requires SelfDisjoint(sep) && !Contains(a, sep)
    ensures Split(a + sep + b, sep) == [a] + Split(b, sep)
    decreases |a|
  {
    if |a| == 0 {
      var s := a + sep + b;
      assert s == sep + b;
      assert s[..|sep|] == sep;
      assert s[|sep|..] == b;
    } else {
      assert !Contains(a[1..], sep);
      SplitFirstPiece(a[1..], sep, b);
      SplitFirstPieceStep(a, sep, b);
    }
  }

  /** The step of `SplitFirstPiece`: the first character of `a` joins the piece split off after it. */
  lemma SplitFirstPieceStep(a: string, sep: string, b: string)
    requires SelfDisjoint(sep) && !Contains(a, sep) && |a| > 0
    requires Split(a[1..] + sep + b, sep) == [a[1..]] + Split(b, sep)
    ensures Split(a + sep + b, sep) == [a] + Split(b, sep)
  {
    var s := a + sep + b;
    NoSeparatorAtStart(a, sep, b);
    SplitPastFirst(s, sep);
    assert s[1..] == a[1..] + sep + b;
    assert [s[0]] + a[1..] == a;
  }

  /** Where the text does not start with the separator, its first character joins the first piece of the rest. */
  lemma SplitPastFirst(s: string, sep: string)
    requires |sep| > 0 && |s| >= |sep| && s[..|sep|] != sep
    ensures Split(s, sep) == [[s[0]] + Split(s[1..], sep)[0]] + Split(s[1..], sep)[1..]
  {
  }

  /** A non-empty text without the separator, followed by the separator, does not start with it. */
  lemma NoSeparatorAtStart(a: string, sep: string, b: string)
    requires SelfDisjoint(sep) && !Contains(a, sep) && |a| > 0
    ensures (a + sep + b)[..|sep|] != sep
  {
    var s := a + sep + b;
    if |a| >= |sep| {
      assert s[..|sep|] == a[..|sep|];
    } else {
      assert s[..|sep|] == [a[0], sep[0]];
    }
  }

  /** Splitting a join gives back the parts, when no part holds the separator. */
  lemma {:induction false} SplitJoin(parts: seq<string>, sep: string)
    requires |parts| > 0 && SelfDisjoint(sep)
    requires forall i :: 0 <= i < |parts| ==> !Contains(parts[i], sep)
    ensures Split(Join(parts, sep), sep) == parts
    decreases |parts|
  {
    if |parts| == 1 {
      SplitWithoutSeparator(parts[0], sep);
    } else {
      SplitJoin(parts[1..], sep);
      SplitFirstPiece(parts[0], sep, Join(parts[1..], sep));
    }
  }

  /** No piece of a split on one character holds that character. */
  lemma {:induction false} SplitPiecesAvoid(s: string, c: char)
    ensures forall i :: 0 <= i < |Split(s, [c])| ==> c !in Split(s, [c])[i]
    decreases |s|
  {
    if |s| >= 1 {
      SplitPiecesAvoid(s[1..], c);
    }
  }

  /** The number of occurrences of `c` in `s`. */
  function CountChar(s: string, c: char): nat
    decreases |s|
  {
    if |s| == 0 then 0 else (if s[0] == c then 1 else 0) + CountChar(s[1..], c)
  }

  /** Splitting on one character gives one more piece than there are occurrences of it. */
  lemma {:induction false} SplitCount(s: string, c: char)
    ensures |Split(s, [c])| == CountChar(s, c) + 1
    decreases |s|
  {
    if |s| >= 1 {
      SplitCount(s[1..], c);
      assert s[1..] == s[|[c]|..];
      assert (s[..1] == [c]) <==> (s[0] == c);
    }
  }

  /** A text holds a separator only if it holds the separator's first character. */
  lemma {:induction false} ContainsFirstChar(s: string, t: string)
    requires |t| > 0 && Contains(s, t)
    ensures t[0] in s
    decreases |s|
  {
    if s[..|t|] != t {
      ContainsFirstChar(s[1..], t);
    } else {
      assert s[0] == t[0];
    }
  }

  /** A text that lacks the first character of `t` does not contain `t`. */
  lemma AvoidsFirstChar(s: string, t: string)
    requires |t| > 0 && t[0] !in s
    ensures !Contains(s, t)
  {
    if Contains(s, t) {
      ContainsFirstChar(s, t);
    }
  }

  /** A one-character separator is contained exactly when the character occurs. */
  lemma {:induction false} ContainsChar(s: string, c: char)
    ensures Contains(s, [c]) <==> c in s
    decreases |s|
  {
    if |s| >= 1 {
      ContainsChar(s[1..], c);
      assert s == [s[0]] + s[1..];
    }
  }

  /**
    Two texts without a two-character separator, that do not form one where
    they meet, concatenate to a text without it.
   */
  lemma {:induction false} ConcatAvoids(x: string, y: string, sep: string)
    requires |sep| == 2
    requires !Contains(x, sep) && !Contains(y, sep)
    requires |x| > 0 && |y| > 0 ==> !(x[|x| - 1] == sep[0] && y[0] == sep[1])
    ensures !Contains(x + y, sep)
    decreases |x|
  {
    if |x| > 0 {
      assert (x + y)[1..] == x[1..] + y;
      if |x + y| >= 2 {
        if |x| == 1 {
          assert (x + y)[..2] == [x[0], y[0]];
        } else {
          assert (x + y)[..2] == x[..2];
        }
      }
      if |x| > 1 {
        assert x[1..][|x| - 2] == x[|x| - 1];
      }
      ConcatAvoids(x[1..], y, sep);
    } else {
      assert x + y == y;
    }
  }

  /** The whitespace `str.strip()` removes (ASCII only): blank (32), tab to carriage return (9..13), and the separators U+001C..U+001F (28..31). */
  predicate IsSpace(c: char) {
    var n := c as int;
    n == 32 || 9 <= n <= 13 || 28 <= n <= 31
  }

  /** `s.lstrip()`: the suffix after the leading whitespace. */
  function TrimLeft(s: string): (r: string)
    ensures |r| <= |s| && r == s[|s| - |r|..]
    ensures |r| > 0 ==> !IsSpace(r[0])
    ensures forall i :: 0 <= i < |s| - |r| ==> IsSpace(s[i])
    decreases |s|
  {
    if |s| > 0 && IsSpace(s[0]) then TrimLeft(s[1..]) else s
  }

  /** `s.rstrip()`: the prefix before the trailing whitespace. */
  function TrimRight(s: string): (r: string)
    ensures |r| <= |s| && r == s[..|r|]
    ensures |r| > 0 ==> !IsSpace(r[|r| - 1])
    ensures forall i :: |r| <= i < |s| ==> IsSpace(s[i])
    decreases |s|
  {
    if |s| > 0 && IsSpace(s[|s| - 1]) then TrimRight(s[..|s| - 1]) else s
  }

  /** `r` is what is left of `s` once whitespace, and only whitespace, is cut from both ends. */
  predicate TrimmedSlice(s: string, r: string) {
    exists i, j :: && 0 <= i <= j <= |s| && r == s[i..j]
                   && (forall k :: 0 <= k < i ==> IsSpace(s[k]))
                   && (forall k :: j <= k < |s| ==> IsSpace(s[k]))
  }

  /**
    `s.strip()`: the result is the slice of `s` left once the whitespace at
    both ends is cut away, and nothing else is removed.
   */
  function Strip(s: string): (r: string)
    ensures |r| > 0 ==> !IsSpace(r[0]) && !IsSpace(r[|r| - 1])
    ensures forall c :: c in r ==> c in s
    ensures TrimmedSlice(s, r)
  {
    var left := TrimLeft(s);
    var r := TrimRight(left);
    assert forall c :: c in r ==> c in left;
    assert |r| > 0 ==> r[0] == left[0];
    TrimBothEnds(s, left, r);
    r
  }

  /** Trimming the left, then the right, cuts only whitespace from the ends. */
  lemma TrimBothEnds(s: string, left: string, r: string)
    requires left == TrimLeft(s) && r == TrimRight(left)
    ensures TrimmedSlice(s, r)
  {
    TrimmedSliceOfParts(s, left, r, |s| - |left|);
  }

  /** The two trims as plain facts: `left` is `s` without its leading blanks, `r` is `left` without its trailing ones. */
  lemma TrimmedSliceOfParts(s: string, left: string, r: string, i: int)
    requires 0 <= i <= |s| && left == s[i..]
    requires forall k :: 0 <= k < i ==> IsSpace(s[k])
    requires |r| <= |left| && r == left[..|r|]
    requires forall k :: |r| <= k < |left| ==> IsSpace(left[k])
    ensures TrimmedSlice(s, r)
  {
    SuffixSpaces(s, left, i, |r|);
    PrefixOfSuffix(s, i, |r|);
    SliceWitness(s, r, i, i + |r|);
  }

  lemma SliceWitness(s: string, r: string, i: int, j: int)
    requires 0 <= i <= j <= |s| && r == s[i..j]
    requires forall k :: 0 <= k < i ==> IsSpace(s[k])
    requires forall k :: j <= k < |s| ==> IsSpace(s[k])
    ensures TrimmedSlice(s, r)
  {
  }

  lemma PrefixOfSuffix(s: string, i: nat, n: nat)
    requires i + n <= |s|
    ensures s[i..][..n] == s[i..i + n]
  {
  }

  /** Whitespace at the end of the suffix `left` of `s` is whitespace at the end of `s`. */
  lemma SuffixSpaces(s: string, left: string, i: int, n: int)
    requires 0 <= i <= |s| && left == s[i..] && 0 <= n <= |left|
    requires forall k :: n <= k < |left| ==> IsSpace(left[k])
    ensures forall k :: i + n <= k < |s| ==> IsSpace(s[k])
  {
    forall k | i + n <= k < |s|
      ensures IsSpace(s[k])
    {
      assert s[k] == left[k - i];
    }
  }

  /** Text with no whitespace at either end is left as it is. */
  lemma StripClean(s: string)
    requires |s| > 0 && !IsSpace(s[0]) && !IsSpace(s[|s| - 1])
    ensures Strip(s) == s
  {
  }

  /** One leading blank before otherwise clean text is all that is removed. */
  lemma StripLeadingBlank(s: string)
    requires |s| > 1 && s[0] == ' ' && !IsSpace(s[1]) && !IsSpace(s[|s| - 1])
    ensures Strip(s) == s[1..]
  {
    assert TrimLeft(s) == TrimLeft(s[1..]);
  }

  function LowerChar(c: char): char {
    if 'A' <= c <= 'Z' then (c as int - 'A' as int + 'a' as int) as char else c
  }

  /** `s.lower()` on ASCII letters. */
  function Lower(s: string): (r: string)
    ensures |r| == |s|
    ensures forall i :: 0 <= i < |r| ==> !('A' <= r[i] <= 'Z')
    ensures forall i :: 0 <= i < |r| ==> (r[i] == s[i] || ('A' <= s[i] <= 'Z' && r[i] as int == s[i] as int + 32))
    ensures forall c :: c in r && !('a' <= c <= 'z') ==> c in s
    ensures forall i :: 0 <= i < |r| ==> (IsSpace(r[i]) <==> IsSpace(s[i]))
  {
    seq(|s|, i requires 0 <= i < |s| => LowerChar(s[i]))
  }

  /** `s.replace(c, "")`. */
  function RemoveChar(s: string, c: char): (r: string)
    ensures c !in r
    ensures forall x :: x in r ==> x in s
    ensures c !in s ==> r == s
    decreases |s|
  {
    if |s| == 0 then ""
    else (if s[0] == c then "" else [s[0]]) + RemoveChar(s[1..], c)
  }

  /**
   * Removal works piece by piece and deletes a lone `c`: with the contract above (text without `c` is kept)
   * this fixes `RemoveChar` on every input, one character at a time.
   */
  lemma {:induction false} RemoveCharConcat(a: string, b: string, c: char)
    ensures RemoveChar(a + b, c) == RemoveChar(a, c) + RemoveChar(b, c)
    ensures RemoveChar([c], c) == ""
    decreases |a|
  {
    if |a| > 0 {
      assert (a + b)[1..] == a[1..] + b;
      RemoveCharConcat(a[1..], b, c);
    } else {
      assert a + b == b;
    }
  }

  predicate IsDigit(c: char) {
    '0' <= c <= '9'
  }

  function DigitChar(d: nat): char
    requires d < 10
  {
    ('0' as int + d) as char
  }

  /** `str(n)` for a natural number: decimal digits, most significant first, no leading zero. */
  function NatToString(n: nat): (r: string)
    ensures |r| > 0
    ensures forall i :: 0 <= i < |r| ==> IsDigit(r[i])
    decreases n
  {
    if n < 10 then [DigitChar(n)] else NatToString(n / 10) + [DigitChar(n % 10)]
  }

  /** `str(n)` for any integer. */
  function IntToString(n: int): (r: string)
    ensures |r| > 0
    ensures forall c :: c in r ==> IsDigit(c) || c == '-'
  {
    if n < 0 then "-" + NatToString(-n) else NatToString(n)
  }

  /** A single decimal digit is written as itself. */
  lemma SmallIntText(n: int)
    requires 0 <= n < 10
    ensures IntToString(n) == [DigitChar(n)]
  {
  }

  /** The value of a run of decimal digits. */
  function DigitsValue(s: string): nat
    requires forall i :: 0 <= i < |s| ==> IsDigit(s[i])
    decreases |s|
  {
    if |s| == 0 then 0
    else
      assert IsDigit(s[|s| - 1]);
      10 * DigitsValue(s[..|s| - 1]) + (s[|s| - 1] as int - '0' as int)
  }

  /** `int(s)` on an optional sign and ASCII digits; anything else is rejected. */
  function ParseInt(s: string): (r: Option<int>)
    ensures r.Some? ==> |s| > 0
  {
    var sign := if |s| > 0 && (s[0] == '-' || s[0] == '+') then 1 else 0;
    var digits := s[sign..];
    if |digits| == 0 || exists i :: 0 <= i < |digits| && !IsDigit(digits[i]) then None
    else if sign == 1 && s[0] == '-' then Some(-(DigitsValue(digits) as int))
    else Some(DigitsValue(digits))
  }

  lemma {:induction false} DigitsOfNat(n: nat)
    ensures DigitsValue(NatToString(n)) == n
    decreases n
  {
    if n >= 10 {
      DigitsOfNat(n / 10);
      var s := NatToString(n);
      assert s[..|s| - 1] == NatToString(n / 10);
    }
  }

  /** `int(str(n)) == n`. */
  lemma ParseIntToString(n: int)
    ensures ParseInt(IntToString(n)) == Some(n)
  {
    if n < 0 {
      ParseNegativeText(n);
    } else {
      DigitsOfNat(n);
      ParseDigits(NatToString(n));
    }
  }

  /** `int(str(n)) == n` for a negative `n`. */
  lemma ParseNegativeText(n: int)
    requires n < 0
    ensures ParseInt(IntToString(n)) == Some(n)
  {
    var digits := NatToString(-n);
    DigitsOfNat(-n);
    ParseSignedDigits(digits);
  }

  /** `int` of a run of digits is its value. */
  lemma ParseDigits(s: string)
    requires |s| > 0 && forall i :: 0 <= i < |s| ==> IsDigit(s[i])
    ensures ParseInt(s) == Some(DigitsValue(s))
  {
    assert IsDigit(s[0]);
  }

  /** `int` of a minus sign and a run of digits is minus their value. */
  lemma ParseSignedDigits(s: string)
    requires |s| > 0 && forall i :: 0 <= i < |s| ==> IsDigit(s[i])
    ensures ParseInt("-" + s) == Some(-(DigitsValue(s) as int))
  {
    assert ("-" + s)[1..] == s;
  }
}

=== FILE: summary.dfy ===
/**
  The bill summary: every saved bill's due date is resolved against today,
  the bills due within two weeks and those left in the current month are
  gathered, and one of four reports is chosen.
*/
module Summary {
  import opened Results
  import opened Calendar
  import opened DueDates
  import opened Bills

  /** Which monthly step resolves due dates: the one the bot uses, or the intended one. */
  datatype MonthlyRule = AsWritten | Intended

  /** One line of a report: who is paid, how much, and when. */
  datatype Entry = Entry(merchant: string, amount: string, due: Date)

  /** The two lists the summary gathers, each in the order of the saved bills. */
  datatype Buckets = Buckets(upcoming: seq<Entry>, remaining: seq<Entry>)

  /** What the summary tells the user. */
  datatype Report =
    | NoBills                          // the user has no saved bills
    | Upcoming(entries: seq<Entry>)    // bills due within the next two weeks
    | RemainingMonth(entries: seq<Entry>)  // none due soon, but some left this month
    | NoneDueSoon                      // nothing due soon and nothing left this month

  /** How far ahead, in days, a bill counts as coming up. */
  const Horizon: nat := 14

  /** A bill's due date under the chosen monthly rule. */
  function Resolve(rule: MonthlyRule, b: Bill, today: Date): (r: Result<Date, DateError>)
    requires Valid(today)
    ensures r.Ok? ==> Valid(r.value)
  {
    match rule
    case AsWritten => ResolveDue(b.frequency, b.dueDay, today)
    case Intended => ResolveDueCorrected(b.frequency, b.dueDay, today)
  }

  /** Due no later than two weeks from today, counted in days. */
  predicate DueSoon(due: Date, today: Date) {
    WellFormed(due) && WellFormed(today) && DayNumber(due) <= DayNumber(today) + Horizon
  }

  /** In today's month (the month number alone) and not before today. */
  predicate LeftThisMonth(due: Date, today: Date) {
    due.month == today.month && !Before(due, today)
  }

  /**
    One pass over the saved bills, in order: resolve the bill's due date, work
    out today plus two weeks, and file the bill's line under "coming up" when
    it is due no later than that, and under "rest of the month" when it falls
    in today's month and not before today. The first failure ends the pass.
   */
  function Classify(rule: MonthlyRule, bills: seq<Bill>, today: Date): (r: Result<Buckets, DateError>)
    requires Valid(today)
    ensures r.Ok? ==> |r.value.upcoming| <= |bills| && |r.value.remaining| <= |bills|
    ensures r.Ok? ==> forall i :: 0 <= i < |r.value.upcoming| ==> DueSoon(r.value.upcoming[i].due, today)
    ensures r.Ok? ==> forall i :: 0 <= i < |r.value.remaining| ==> LeftThisMonth(r.value.remaining[i].due, today)
    decreases |bills|
  {
    if |bills| == 0 then Ok(Buckets([], []))
    else
      var b := bills[0];
      var due :- Resolve(rule, b, today);
      var horizon :- AddDays(today, Horizon);
      var rest :- Classify(rule, bills[1..], today);
      var e := Entry(b.merchant, b.amount, due);
      BeforeIsDayNumberOrder(horizon, due);
      Ok(Buckets(
        (if !Before(horizon, due) then [e] else []) + rest.upcoming,
        (if LeftThisMonth(due, today) then [e] else []) + rest.remaining))
  }

  /**
    The report chosen from the gathered lists: coming-up bills take
    precedence, the rest of the month is shown only when nothing is coming
    up, and the choice never claims there are no bills.
   */
  function Choose(b: Buckets): (r: Report)
    ensures r != NoBills
    ensures r.Upcoming? <==> |b.upcoming| > 0
    ensures r.RemainingMonth? <==> |b.upcoming| == 0 && |b.remaining| > 0
    ensures r.Upcoming? ==> r.entries == b.upcoming
    ensures r.RemainingMonth? ==> r.entries == b.remaining
  {
    if |b.upcoming| > 0 then Upcoming(b.upcoming)
    else if |b.remaining| > 0 then RemainingMonth(b.remaining)
    else NoneDueSoon
  }

  /**
    The summary of a user's saved bills. With no bills it says so; otherwise
    it lists the bills coming up in the next two weeks, or failing that the
    bills left this month, or says there are none.
   */
  function Summarize(rule: MonthlyRule, bills: seq<Bill>, today: Date): (r: Result<Report, DateError>)
    requires Valid(today)
    ensures r == Ok(NoBills) <==> |bills| == 0
    ensures r.Ok? && r.value.Upcoming? ==>
              0 < |r.value.entries| <= |bills| &&
              forall i :: 0 <= i < |r.value.entries| ==> DueSoon(r.value.entries[i].due, today)
    ensures r.Ok? && r.value.RemainingMonth? ==>
              0 < |r.value.entries| <= |bills| &&
              forall i :: 0 <= i < |r.value.entries| ==> LeftThisMonth(r.value.entries[i].due, today)
  {
    if |bills| == 0 then Ok(NoBills)
    else
      var buckets :- Classify(rule, bills, today);
      Ok(Choose(buckets))
  }

  // ---------------------------------------------------------------------------
  // Reference definitions: resolve every bill, then keep the lines that qualify.
  // ---------------------------------------------------------------------------

  /** Every bill's line with its resolved due date, in order; the first bill that fails gives the error. */
  function ResolveAll(rule: MonthlyRule, bills: seq<Bill>, today: Date): (r: Result<seq<Entry>, DateError>)
    requires Valid(today)
    ensures r.Ok? ==> |r.value| == |bills|
    ensures r.Ok? ==> forall i :: 0 <= i < |bills| ==>
              Resolve(rule, bills[i], today).Ok? &&
              r.value[i] == Entry(bills[i].merchant, bills[i].amount, Resolve(rule, bills[i], today).value)
    ensures r.Err? ==> exists i :: 0 <= i < |bills| && FirstFailure(rule, bills, today, i, r.error)
    decreases |bills|
  {
    if |bills| == 0 then Ok([])
    else
      match Resolve(rule, bills[0], today)
      case Err(e) =>
        assert FirstFailure(rule, bills, today, 0, e);
        Err(e)
      case Ok(due) =>
        match ResolveAll(rule, bills[1..], today)
        case Err(e) =>
          FirstFailureLater(rule, bills, today, e);
          Err(e)
        case Ok(rest) =>
          assert forall i :: 1 <= i < |bills| ==> bills[i] == bills[1..][i - 1];
          Ok([Entry(bills[0].merchant, bills[0].amount, due)] + rest)
  }

  /** A first failure among the later bills is the first failure overall when the first bill resolves. */
  lemma FirstFailureLater(rule: MonthlyRule, bills: seq<Bill>, today: Date, e: DateError)
    requires Valid(today) && |bills| > 0 && Resolve(rule, bills[0], today).Ok?
    requires exists i :: 0 <= i < |bills| - 1 && FirstFailure(rule, bills[1..], today, i, e)
    ensures exists i :: 0 <= i < |bills| && FirstFailure(rule, bills, today, i, e)
  {
    var i :| 0 <= i < |bills| - 1 && FirstFailure(rule, bills[1..], today, i, e);
    assert bills[i + 1] == bills[1..][i];
    forall j | 0 <= j < i + 1
      ensures Resolve(rule, bills[j], today).Ok?
    {
      if j > 0 {
        assert bills[j] == bills[1..][j - 1];
      }
    }
    assert FirstFailure(rule, bills, today, i + 1, e);
  }

  /** Bill `i` is the first whose due date cannot be resolved, and it fails with `e`. */
  predicate FirstFailure(rule: MonthlyRule, bills: seq<Bill>, today: Date, i: int, e: DateError)
    requires Valid(today) && 0 <= i < |bills|
  {
    && Resolve(rule, bills[i], today) == Err(e)
    && forall j :: 0 <= j < i ==> Resolve(rule, bills[j], today).Ok?
  }

  /** The lines due within two weeks, in order. */
  function DueSoonOf(entries: seq<Entry>, today: Date): (r: seq<Entry>)
    ensures forall e :: e in r <==> e in entries && DueSoon(e.due, today)
    decreases |entries|
  {
    if |entries| == 0 then []
    else (if DueSoon(entries[0].due, today) then [entries[0]] else []) + DueSoonOf(entries[1..], today)
  }

  /** The lines left in today's month, in order. */
  function LeftThisMonthOf(entries: seq<Entry>, today: Date): (r: seq<Entry>)
    ensures forall e :: e in r <==> e in entries && LeftThisMonth(e.due, today)
    decreases |entries|
  {
    if |entries| == 0 then []
    else (if LeftThisMonth(entries[0].due, today) then [entries[0]] else []) + LeftThisMonthOf(entries[1..], today)
  }

  // ---------------------------------------------------------------------------
  // The summary against the reference definitions.
  // ---------------------------------------------------------------------------

  /**
    Away from the end of the calendar, the one-pass classification is the
    same as resolving every bill and then keeping, in order, the lines due
    within two weeks and the lines left this month; it fails exactly when
    some bill's due date cannot be resolved, with the first such error.
   */
  lemma {:induction false} ClassifyIsResolveThenFilter(rule: MonthlyRule, bills: seq<Bill>, today: Date)
    requires Valid(today) && AddDays(today, Horizon).Ok?
    ensures Classify(rule, bills, today) ==
            match ResolveAll(rule, bills, today)
            case Ok(es) => Ok(Buckets(DueSoonOf(es, today), LeftThisMonthOf(es, today)))
            case Err(e) => Err(e)
    decreases |bills|
  {
    if |bills| > 0 {
      ClassifyIsResolveThenFilter(rule, bills[1..], today);
      match Resolve(rule, bills[0], today)
      case Err(_) =>
      case Ok(due) =>
        var horizon := AddDays(today, Horizon).value;
        BeforeIsDayNumberOrder(horizon, due);
        match ResolveAll(rule, bills[1..], today)
        case Err(_) =>
        case Ok(rest) =>
          var es := [Entry(bills[0].merchant, bills[0].amount, due)] + rest;
          assert es[1..] == rest;
      }
  }

  /**
    Within two weeks of the last representable date, working out today plus
    two weeks overflows, so any non-empty list of bills fails: with the first
    bill's own error if it has one, else with the overflow.
   */
  lemma ClassifyNearEndOfCalendar(rule: MonthlyRule, bills: seq<Bill>, today: Date)
    requires Valid(today) && |bills| > 0
    requires DayNumber(today) + Horizon > MaxDayNumber()
    ensures Classify(rule, bills, today).Err?
    ensures Resolve(rule, bills[0], today).Err? ==>
              Classify(rule, bills, today).error == Resolve(rule, bills[0], today).error
    ensures Resolve(rule, bills[0], today).Ok? ==> Classify(rule, bills, today).error == Overflow
  {
  }

  /**
    Which report the summary gives, in terms of the resolved lines: coming-up
    bills whenever any line is due within two weeks, else the rest of the
    month whenever any line is left this month, else that nothing is due.
   */
  lemma SummaryChoice(rule: MonthlyRule, bills: seq<Bill>, today: Date)
    requires Valid(today) && |bills| > 0 && AddDays(today, Horizon).Ok?
    requires ResolveAll(rule, bills, today).Ok?
    ensures var es := ResolveAll(rule, bills, today).value;
            && ((exists i :: 0 <= i < |es| && DueSoon(es[i].due, today)) ==>
                  Summarize(rule, bills, today) == Ok(Upcoming(DueSoonOf(es, today))))
            && ((forall i :: 0 <= i < |es| ==> !DueSoon(es[i].due, today)) &&
                (exists i :: 0 <= i < |es| && LeftThisMonth(es[i].due, today)) ==>
                  Summarize(rule, bills, today) == Ok(RemainingMonth(LeftThisMonthOf(es, today))))
            && ((forall i :: 0 <= i < |es| ==> !DueSoon(es[i].due, today) && !LeftThisMonth(es[i].due, today)) ==>
                  Summarize(rule, bills, today) == Ok(NoneDueSoon))
  {
    var es := ResolveAll(rule, bills, today).value;
    ClassifyIsResolveThenFilter(rule, bills, today);
    DueSoonOfEmpty(es, today);
    LeftThisMonthOfEmpty(es, today);
  }

  /** No line is kept as due soon exactly when no line is due soon. */
  lemma {:induction false} DueSoonOfEmpty(es: seq<Entry>, today: Date)
    ensures DueSoonOf(es, today) == [] <==> forall i :: 0 <= i < |es| ==> !DueSoon(es[i].due, today)
    decreases |es|
  {
    if |es| > 0 {
      DueSoonOfEmpty(es[1..], today);
      assert forall i :: 1 <= i < |es| ==> es[i] == es[1..][i - 1];
    }
  }

  /** No line is kept as left this month exactly when no line is left this month. */
  lemma {:induction false} LeftThisMonthOfEmpty(es: seq<Entry>, today: Date)
    ensures LeftThisMonthOf(es, today) == [] <==> forall i :: 0 <= i < |es| ==> !LeftThisMonth(es[i].due, today)
    decreases |es|
  {
    if |es| > 0 {
      LeftThisMonthOfEmpty(es[1..], today);
      assert forall i :: 1 <= i < |es| ==> es[i] == es[1..][i - 1];
    }
  }

  /** Every line of a report is some saved bill's merchant and amount with that bill's resolved due date. */
  lemma ReportEntriesComeFromBills(rule: MonthlyRule, bills: seq<Bill>, today: Date)
    requires Valid(today)
    requires Summarize(rule, bills, today).Ok?
    ensures var report := Summarize(rule, bills, today).value;
            report.Upcoming? || report.RemainingMonth? ==>
              forall e :: e in report.entries ==>
                exists i :: 0 <= i < |bills| && Resolve(rule, bills[i], today) == Ok(e.due) &&
                            e.merchant == bills[i].merchant && e.amount == bills[i].amount
  {
    if |bills| > 0 {
      if AddDays(today, Horizon).Err? {
        ClassifyNearEndOfCalendar(rule, bills, today);
        assert false;
      }
      ClassifyIsResolveThenFilter(rule, bills, today);
      var es := ResolveAll(rule, bills, today).value;
      forall e | e in es
        ensures exists i :: 0 <= i < |bills| && Resolve(rule, bills[i], today) == Ok(e.due) &&
                            e.merchant == bills[i].merchant && e.amount == bills[i].amount
      {
        var i :| 0 <= i < |es| && es[i] == e;
      }
    }
  }

  /**
    A weekly or fortnightly bill whose day this month has already passed is
    always listed as coming up: it is moved to the first step on or after
    today, which is less than one step, so at most two weeks, away.
   */
  lemma SteppedBillIsDueSoon(rule: MonthlyRule, b: Bill, today: Date)
    requires Valid(today)
    requires b.frequency == Weekly || b.frequency == Fortnightly
    requires Anchor(today, b.dueDay).Ok? && Before(Anchor(today, b.dueDay).value, today)
    requires Resolve(rule, b, today).Ok?
    ensures DueSoon(Resolve(rule, b, today).value, today)
    ensures !Before(Resolve(rule, b, today).value, today)
  {
    FrequenciesDistinct();
    var anchor := Anchor(today, b.dueDay).value;
    var due := Resolve(rule, b, today).value;
    var step := StepOf(b.frequency);
    assert due == ResolveDue(b.frequency, b.dueDay, today).value;
    SteppedResolution(b.frequency, b.dueDay, today);
    var k: nat :| FirstStepReaching(anchor, today, step, k, due);
    LastStepWithinOne(anchor, today, step, k, due);
  }

  /** A date reached by steps from a passed anchor lies less than one step after today. */
  lemma LastStepWithinOne(anchor: Date, today: Date, step: nat, k: nat, due: Date)
    requires WellFormed(anchor) && WellFormed(today)
    requires Before(anchor, today) && !Before(due, today)
    requires FirstStepReaching(anchor, today, step, k, due)
    ensures WellFormed(due) && DayNumber(due) < DayNumber(today) + step
  {
    assert k > 0;
    var previous := StepForward(anchor, step, k - 1);
    StepForwardDayNumber(anchor, step, k);
    StepForwardDayNumber(anchor, step, k - 1);
    BeforeIsDayNumberOrder(previous, today);
    assert step * k == step * (k - 1) + step;
  }

  /**
    With the intended monthly step, and every bill's frequency one the bot
    recognises, no line of any report is dated before today.
   */
  lemma IntendedListsNothingPastDue(bills: seq<Bill>, today: Date)
    requires Valid(today)
    requires forall i :: 0 <= i < |bills| ==>
               bills[i].frequency == Monthly || bills[i].frequency == Weekly || bills[i].frequency == Fortnightly
    requires Summarize(Intended, bills, today).Ok?
    ensures var report := Summarize(Intended, bills, today).value;
            report.Upcoming? || report.RemainingMonth? ==>
              forall e :: e in report.entries ==> !Before(e.due, today)
  {
    ReportEntriesComeFromBills(Intended, bills, today);
  }

  /**
    The monthly step as written can list a bill whose date has passed: a
    monthly bill due on the 1st, with today the 15th of January, is reported
    as coming up on 1 January. With the intended step it moves to 1 February,
    beyond two weeks and outside January, so nothing is reported as due.
   */
  lemma WrittenRuleListsPastDue()
    ensures Summarize(AsWritten, [Bill(Monthly, "Rent", "1200", 1)], Date(2024, 1, 15)) ==
            Ok(Upcoming([Entry("Rent", "1200", Date(2024, 1, 1))]))
    ensures Summarize(Intended, [Bill(Monthly, "Rent", "1200", 1)], Date(2024, 1, 15)) == Ok(NoneDueSoon)
  {
    var bills := [Bill(Monthly, "Rent", "1200", 1)];
    var today := Date(2024, 1, 15);
    MonthlyCanStayBehind();
    NextMonthlyDueFixesExamples();
    assert Resolve(AsWritten, bills[0], today) == Ok(Date(2024, 1, 1));
    assert Resolve(Intended, bills[0], today) == Ok(Date(2024, 2, 1));
    assert AddDays(today, Horizon) == Ok(Date(2024, 1, 29));
    assert bills[1..] == [];
    assert Classify(AsWritten, bills[1..], today) == Ok(Buckets([], []));
    assert !Before(Date(2024, 1, 29), Date(2024, 1, 1));
    var e := Entry("Rent", "1200", Date(2024, 1, 1));
    assert [e] + [] == [e];
    assert Classify(AsWritten, bills, today) == Ok(Buckets([Entry("Rent", "1200", Date(2024, 1, 1))], []));
    assert Classify(Intended, bills, today) == Ok(Buckets([], []));
  }

  /**
    A monthly bill due on the 1st, with today 20 June: its day has passed, so
    it moves thirty days on to 1 July, which is within two weeks of 20 June,
    and the bill is reported as coming up.
   */
  lemma MonthlyRentNextMonthIsUpcoming()
    ensures Summarize(AsWritten, [Bill(Monthly, "Rent", "1200", 1)], Date(2024, 6, 20)) ==
            Ok(Upcoming([Entry("Rent", "1200", Date(2024, 7, 1))]))
  {
    var bills := [Bill(Monthly, "Rent", "1200", 1)];
    var today := Date(2024, 6, 20);
    RentOnTheFirstRollsToJuly(bills[0], today);
    HorizonFromJuneTwentieth(today);
    assert bills[1..] == [];
    assert Classify(AsWritten, bills[1..], today) == Ok(Buckets([], []));
    var e := Entry("Rent", "1200", Date(2024, 7, 1));
    assert [e] + [] == [e];
  }

  /** The monthly rent due on the 1st, seen on the 20th of June, steps to the 1st of July. */
  lemma RentOnTheFirstRollsToJuly(b: Bill, today: Date)
    requires b == Bill(Monthly, "Rent", "1200", 1) && today == Date(2024, 6, 20)
    ensures Resolve(AsWritten, b, today) == Ok(Date(2024, 7, 1))
  {
    assert Anchor(today, 1) == Ok(Date(2024, 6, 1));
    assert AddDays(Date(2024, 6, 1), 30) == Ok(Date(2024, 7, 1));
  }

  /** Two weeks after the 20th of June is the 4th of July. */
  lemma HorizonFromJuneTwentieth(today: Date)
    requires today == Date(2024, 6, 20)
    ensures AddDays(today, Horizon) == Ok(Date(2024, 7, 4))
  {
  }

  /** A weekly bill due on the 20th, with today the 10th of June: listed as coming up on the 20th. */
  lemma WeeklyBillLaterThisMonthIsUpcoming()
    ensures Summarize(AsWritten, [Bill(Weekly, "Coffee", "5", 20)], Date(2024, 6, 10)) ==
            Ok(Upcoming([Entry("Coffee", "5", Date(2024, 6, 20))]))
  {
    var bills := [Bill(Weekly, "Coffee", "5", 20)];
    var today := Date(2024, 6, 10);
    FrequenciesDistinct();
    SteppedResolution(Weekly, 20, today);
    assert Resolve(AsWritten, bills[0], today) == Ok(Date(2024, 6, 20));
    assert AddDays(today, Horizon) == Ok(Date(2024, 6, 24));
    assert bills[1..] == [];
    assert Classify(AsWritten, bills[1..], today) == Ok(Buckets([], []));
    var e := Entry("Coffee", "5", Date(2024, 6, 20));
    assert [e] + [] == [e];
  }

  /** A bill due soon hides a bill that is only left this month. */
  lemma UpcomingHidesRestOfMonth()
    ensures Summarize(AsWritten, [Bill(Monthly, "Gym", "30", 28), Bill(Monthly, "Rent", "1200", 12)],
                      Date(2024, 6, 10)) ==
            Ok(Upcoming([Entry("Rent", "1200", Date(2024, 6, 12))]))
  {
    var bills := [Bill(Monthly, "Gym", "30", 28), Bill(Monthly, "Rent", "1200", 12)];
    var today := Date(2024, 6, 10);
    assert Resolve(AsWritten, bills[0], today) == Ok(Date(2024, 6, 28));
    assert Resolve(AsWritten, bills[1], today) == Ok(Date(2024, 6, 12));
    assert AddDays(today, Horizon) == Ok(Date(2024, 6, 24));
    assert bills[1..][1..] == [];
    assert Classify(AsWritten, bills[1..][1..], today) == Ok(Buckets([], []));
    var gym := Entry("Gym", "30", Date(2024, 6, 28));
    var rent := Entry("Rent", "1200", Date(2024, 6, 12));
    assert [rent] + [] == [rent];
    assert Classify(AsWritten, bills[1..], today) == Ok(Buckets([rent], [rent]));
    assert [] + [rent] == [rent];
    assert [gym] + [rent] == [gym, rent];
    assert Before(Date(2024, 6, 24), Date(2024, 6, 28));
    assert LeftThisMonth(Date(2024, 6, 28), today);
    assert Classify(AsWritten, bills, today) == Ok(Buckets([rent], [gym, rent]));
  }
}
